=== FILE: README.md ===
# chasm session search, workspace matching and git-tracking helpers in Dafny

This project models the core of `chasm`, a command-line tool that finds, lists
and inspects the chat sessions an editor's AI assistant stores per workspace.
It covers these parts and proves properties about them:

- **Session search** (`find_sessions_filtered`). The steps are:
  - filter the workspace directories;
  - label each workspace;
  - collect the `*.json` session files;
  - drop files whose modification date lies outside the requested bounds;
  - read each remaining file, derive its display title and classify the match (empty pattern, id, title or content);
  - count the `"message":` keys;
  - stamp each result with its "YYYY-MM-DD HH:MM" modification time;
  - sort newest first, keep `limit` results and cut the title and workspace columns to width;
  - report the counters and the limit notice.
- **Title heuristic** (`extract_title_from_content`). It returns the first quoted value after the first `"customTitle"`, or else the first `"text"` value when that is non-empty and under 100 bytes.
- **Column truncation** (`truncate_string`).
- **Match predicates** of `find_workspaces`, `show_workspace` and `find_sessions`.
- **Git-tracking helpers** from the integration tests:
  - porcelain status-line parsing;
  - commit-hash validation;
  - unified-diff line parsing and change counting;
  - the session-to-commit association map;
  - the inclusive timestamp range test.

Text is modelled as UTF-8 **bytes** (`Common.Bytes`), because Rust's `len()` and
string slicing count bytes. That choice is what exposes the finding below.

Modules and files:

| file | module | what |
|---|---|---|
| common.dfy | `Common` | bytes, `Option`, UTF-8 structure (`IsCharBoundary`, `ValidUtf8`) |
| text.dfy | `Text` | `find`, `contains`, ASCII lower-casing, trimming, non-overlapping match counting, byte-string order |
| timestamps.dfy | `Timestamps` | modification times and their "%Y-%m-%d %H:%M" rendering |
| title.dfy | `TitleScan` | the title heuristic |
| truncate.dfy | `Truncation` | `truncate_string`, as written and corrected |
| workspace.dfy | `Workspaces` | workspace matching and labels, `find_workspaces`, `show_workspace`, `find_sessions` |
| session_scan.dfy | `SessionScan` | candidate collection, the date check, match classification, the per-file verdict, the scan |
| ranking.dfy | `Ranking` | the stable newest-first sort, the limit and its notice |
| search.dfy | `Search` | `find_sessions_filtered` end to end |
| scenarios.dfy | `Scenarios` | concrete situations the search handles |
| git_status.dfy | `GitStatus` | `parse_git_status_line` |
| commit_hash.dfy | `CommitHash` | `is_valid_commit_hash`, `is_short_hash`, `is_full_hash` |
| diff_parsing.dfy | `DiffParsing` | `parse_diff_line`, `count_changes` |
| session_commits.dfy | `SessionCommits` | `SessionCommitMap` |
| date_range.dfy | `DateRange` | `is_within_range` |

Inputs the model takes as parameters:

- The filesystem: whether the storage root can be located, exists and can be listed, and the workspace directories with their files, modification times and contents.
- The date parser (`parse`).
- `normalize_path` (`normalize`).
- The current directory's name (`cwdName`).
- The iteration order of the commit map (`order`).

Two behaviours of the code worth stating, which the model follows:

- A date bound that does not parse is silently ignored rather than rejected; `Search.UnparseableBoundIsIgnored` states this for both bounds.
- Every collected file is counted either as scanned or as skipped by date, so scanned + skipped always equals the total (`SessionScan.Scan`).

## Model

| member | source | states |
|---|---|---|
| Text.Find | src/commands/workspace_cmds.rs:658 | `str::find`: the result is an occurrence of the key and no earlier offset holds one; none means no occurrence anywhere |
| Text.FindByte | src/commands/workspace_cmds.rs:659 | `find(':')` / `find('"')`: the first offset holding the byte, or none when no offset holds it |
| Text.Contains | src/commands/workspace_cmds.rs:200 | `contains` holds iff the pattern occurs at some offset |
| Text.Lower | src/commands/workspace_cmds.rs:193 | lower-casing keeps the length and maps each byte by ASCII case folding |
| Text.LowerIdempotent | src/commands/workspace_cmds.rs:193 | lower-casing twice is lower-casing once |
| Text.TrimStart | src/commands/workspace_cmds.rs:661 | `trim_start` returns a suffix, drops only whitespace, and what remains does not start with whitespace |
| Text.TrimEnd | tests/git_tracking_tests.rs:182 | `trim_end` returns a prefix, drops only whitespace, and what remains does not end with whitespace |
| Text.TrimPadded | tests/git_tracking_tests.rs:182 | trimming `front + text + back` gives `text` back when the padding is whitespace and the text has no whitespace at either end |
| Text.CountMatchesIsOccurrences | src/commands/workspace_cmds.rs:567 | for a key with no self-overlap, the leftmost non-overlapping match count (`matches().count()`) equals the number of offsets where the key occurs |
| Text.LexLessTotal | src/commands/workspace_cmds.rs:602 | string comparison is a total order: of two different strings one is smaller |
| Text.LexLessTransitive | src/commands/workspace_cmds.rs:602 | string comparison is transitive |
| Timestamps.FormatOrder | src/commands/workspace_cmds.rs:570-579 | comparing two rendered "%Y-%m-%d %H:%M" stamps orders them exactly as the moments are ordered in time, and equal stamps mean equal moments |
| Timestamps.UnknownAboveFormat | src/commands/workspace_cmds.rs:579 | "unknown" compares above every rendered time |
| Timestamps.Stamp | src/commands/workspace_cmds.rs:570-579 | the modified column is "unknown" without metadata and a 16-byte stamp otherwise |
| TitleScan.QuotedAfterKeySpec | src/commands/workspace_cmds.rs:658-664 | the scanner yields `v` iff the content is `pre key mid : ws "v" rest` with the key's first occurrence right after `pre`, no colon in `mid`, whitespace `ws` and no quote in `v` |
| TitleScan.ExtractTitle | src/commands/workspace_cmds.rs:656-691 | a title is non-empty and quote-free; a title other than the custom value is the first `"text"` value and is under 100 bytes |
| TitleScan.TitleFromCustom | src/commands/workspace_cmds.rs:658-667 | a non-empty, non-`null` value after the first `"customTitle"` is the title, whatever follows |
| TitleScan.RejectedCustomFallsBack | src/commands/workspace_cmds.rs:665-689 | an empty or `null` custom title is not accepted, and the title is then the first `"text"` value when it is non-empty and under 100 bytes, otherwise there is none |
| TitleScan.TitleFromText | src/commands/workspace_cmds.rs:673-688 | without an accepted custom title, the first `"text"` value is the title iff it is non-empty and shorter than 100 bytes, and otherwise there is no title |
| TitleScan.NoKeysNoTitle | src/commands/workspace_cmds.rs:656-691 | with neither key present there is no title |
| Truncation.TruncateAsWritten | src/commands/workspace_cmds.rs:699-705 | the code as written: short text is unchanged; longer text panics iff `max_len - 3` (saturating) is not a character boundary |
| Truncation.Truncate | src/commands/workspace_cmds.rs:699-705 | the corrected truncation: short text unchanged; longer text becomes the longest prefix ending on a character boundary at or before `max_len - 3`, followed by "..."; the result fits `max_len` when `max_len >= 3` |
| Truncation.AsWrittenAgrees | src/commands/workspace_cmds.rs:699-705 | whenever the code as written does not panic, it returns what the corrected version returns |
| Truncation.AsciiNeverPanics | src/commands/workspace_cmds.rs:699-705 | on ASCII text the code as written never panics and equals the corrected version |
| Truncation.TruncateKeepsText | src/commands/workspace_cmds.rs:699-705 | the corrected truncation of well-formed UTF-8 is well-formed UTF-8 |
| Truncation.AccentedTitlePanics | src/commands/workspace_cmds.rs:703 | a 21-character title of 'é' (42 bytes) cut at 40 panics as written, while the corrected version keeps 18 characters and "..." |
| Workspaces.FileName | src/commands/workspace_cmds.rs:443 | `Path::file_name` yields a plain component (not empty, ".", ".." and without a separator) |
| Workspaces.FileNameOfJoin | src/commands/workspace_cmds.rs:443 | the file name of `dir/name` is `name` |
| Workspaces.FileNameIgnoresTrailing | src/commands/workspace_cmds.rs:443 | a trailing "/" or "/." does not change the file name |
| Workspaces.FileNameOfParent | src/commands/workspace_cmds.rs:443 | a path ending in ".." has no file name |
| Workspaces.LabelSpec | src/commands/workspace_cmds.rs:441-448 | the label is the project path's file name when there is one, otherwise the first `min(8, len)` bytes of the hash |
| Workspaces.Select | src/commands/workspace_cmds.rs:195-204 | a workspace is selected iff its lower-cased hash or project path contains the needle |
| Workspaces.FindWorkspaces | src/commands/workspace_cmds.rs:181-204 | `find_workspaces` selects exactly the workspaces mentioning the lower-cased pattern, where "." stands for the current directory's name |
| Workspaces.ShowWorkspace | src/commands/workspace_cmds.rs:715-725 | `show_workspace` selects exactly the workspaces whose hash or path contains the lower-cased query |
| Workspaces.ShowMatchesFind | src/commands/workspace_cmds.rs:715-725 | apart from ".", `show_workspace` and `find_workspaces` select the same workspaces |
| Workspaces.EmptyPatternSelectsAll | src/commands/workspace_cmds.rs:195-204 | the empty pattern selects every workspace |
| Workspaces.AnyRequestMentions | src/commands/workspace_cmds.rs:306-316 | the content test holds iff some request's message text contains the needle |
| Workspaces.FindSessions | src/commands/workspace_cmds.rs:265-320 | the command fails iff workspace discovery fails or some workspace it searches cannot list its sessions; otherwise a session is reported iff its workspace has chat sessions and is in the selected project, and its id, title or some message text contains the lower-cased pattern |
| Workspaces.EmptyPatternMatchesSession | src/commands/workspace_cmds.rs:301-305 | an empty pattern matches every session |
| SessionScan.StemDotExtension | src/commands/workspace_cmds.rs:527-530 | a name with an extension is its stem, a dot, and the extension |
| SessionScan.StemOfSessionName | src/commands/workspace_cmds.rs:527-530 | the id of `<id>.json` is `id` and its extension is `json` |
| SessionScan.Selected | src/commands/workspace_cmds.rs:410-439 | a directory takes part iff it has `chatSessions` and, under a filter, its hash or path mentions the lower-cased filter |
| SessionScan.SelectedCount | src/commands/workspace_cmds.rs:410-439 | the filter neither duplicates nor drops a kept directory: each appears as often as in the listing when it passes the filter, and not at all otherwise |
| SessionScan.SelectedConcat | src/commands/workspace_cmds.rs:410-439 | the filter keeps directory order: filtering two runs of directories gives the first run's survivors followed by the second's |
| SessionScan.DirCandidates | src/commands/workspace_cmds.rs:466-478 | a file is a candidate iff its extension is exactly `json`, and it carries its workspace's label |
| SessionScan.IndexMembership | src/commands/workspace_cmds.rs:463-480 | a candidate is a `.json` file of one of the selected directories, carrying that directory's label, and every such file is a candidate |
| SessionScan.DirCandidatesCount | src/commands/workspace_cmds.rs:466-478 | each `.json` entry of a listing becomes a candidate exactly as often as it is listed, and no other entry does |
| SessionScan.DirCandidatesConcat | src/commands/workspace_cmds.rs:466-478 | listing order is kept: the candidates of two listings in a row are those of the first followed by those of the second |
| SessionScan.IndexCount | src/commands/workspace_cmds.rs:463-482 | each `.json` entry of the directories is a candidate exactly as often as it is listed, so `total_files` is the number of `.json` entries |
| SessionScan.IndexConcat | src/commands/workspace_cmds.rs:463-480 | the `flat_map` order: the candidates of two runs of directories are those of the first run followed by those of the second |
| SessionScan.IndexOfOne | src/commands/workspace_cmds.rs:463-480 | one directory contributes exactly its own candidates, labelled with its label |
| SessionScan.BoundsAreInclusive | src/commands/workspace_cmds.rs:498-509 | a file dated on or between the bounds is not skipped, including one dated on both bounds |
| SessionScan.UnknownDateNeverSkipped | src/commands/workspace_cmds.rs:491-494 | a file without readable metadata is never skipped by date |
| SessionScan.Classify | src/commands/workspace_cmds.rs:531-564 | an empty pattern lists everything; otherwise the kind is id if the id contains the pattern, else title if the title does, else content when content search is on, not title-only and the content does |
| SessionScan.Evaluate | src/commands/workspace_cmds.rs:489-587 | skipped by date iff outside the bounds; unreadable iff in bounds and unreadable; otherwise kept iff the classification matches, with the extracted title (or "Untitled"), the label, the stamp, and the number of occurrences of `"message":` |
| SessionScan.MessageKeyNoSelfOverlap | src/commands/workspace_cmds.rs:567 | `"message":` cannot overlap itself, so counting leftmost matches counts all occurrences |
| SessionScan.Scan | src/commands/workspace_cmds.rs:482-590 | one pass yields the kept hits in order and the scanned and skipped counters, and scanned + skipped equals the number of files |
| SessionScan.KeptHitsMembership | src/commands/workspace_cmds.rs:487-588 | a hit is a result iff some candidate produced it |
| SessionScan.ResultsWithinBounds | src/commands/workspace_cmds.rs:491-519 | every result comes from a readable file whose known date lies within the bounds |
| SessionScan.EmptyPatternKeepsReadable | src/commands/workspace_cmds.rs:549-557 | with an empty pattern every scanned readable file is a result, with an empty match tag |
| SessionScan.IdMatchWins | src/commands/workspace_cmds.rs:531-564 | when the id matches, the match is reported as an id match whatever the title and content hold |
| SessionScan.TitleOnlyKeepsIdMatches | src/commands/workspace_cmds.rs:530-547 | under `--title-only` no result is a content match, and a readable, in-range session whose id contains the non-empty pattern is still kept as an id match |
| SessionScan.UntitledIsSearchable | src/commands/workspace_cmds.rs:522-535 | a file without a title matches the pattern "untitled" by title |
| Ranking.Sort | src/commands/workspace_cmds.rs:602 | sorting permutes the hits |
| Ranking.SortSorted | src/commands/workspace_cmds.rs:602 | the sorted hits have non-increasing stamps |
| Ranking.SortIsStable | src/commands/workspace_cmds.rs:602 | hits with equal stamps keep their relative order |
| Ranking.Rank | src/commands/workspace_cmds.rs:602-605 | the ranking keeps `min(limit, n)` hits, a prefix of the sorted order |
| Ranking.RankKeepsNewest | src/commands/workspace_cmds.rs:602-605 | the kept hits are sorted, and no dropped hit is newer than a kept one |
| Ranking.RankFromHits | src/commands/workspace_cmds.rs:605 | every kept hit is one of the hits |
| Ranking.LimitNoticeWhenFull | src/commands/workspace_cmds.rs:648-650 | the limit notice appears iff there were at least `limit` hits |
| Ranking.RankingIsChronological | src/commands/workspace_cmds.rs:601-602 | of two ranked known times, the earlier-listed one is not older |
| Ranking.UnknownRanksFirst | src/commands/workspace_cmds.rs:578-602 | files shown as "unknown" are listed before every dated file |
| Search.Display | src/commands/workspace_cmds.rs:621-631 | with the corrected truncation, a row's title fits 40 bytes and its workspace fits 20, a short title is shown whole, and the other columns are carried over |
| Search.DisplayAgreesAsWritten | src/commands/workspace_cmds.rs:621-631 | whenever `truncate_string` as written returns for both columns, the row is exactly the one it prints |
| Search.FindSessionsFiltered | src/commands/workspace_cmds.rs:374-653 | the command fails iff the storage root cannot be located or listed, reports missing storage iff the root does not exist, no workspaces iff none is selected, no matches with the skip count, or a listing whose rows are the displayed ranked hits: `min(limit, hits)` newest-first rows, total = files, scanned and skipped as counted, scanned + skipped = total, and the limit notice iff hits >= limit |
| Search.RankedHitFromCandidate | src/commands/workspace_cmds.rs:482-605 | every ranked hit is the kept hit of some candidate session file |
| Search.ListedRowsShowSessionFiles | src/commands/workspace_cmds.rs:410-631 | every listed row displays the hit of some `.json` session file of a selected workspace |
| Search.UnparseableBoundIsIgnored | src/commands/workspace_cmds.rs:389-391 | an `after` or a `before` bound that does not parse behaves exactly like no bound |
| Scenarios.OnlyWorkspaceWithSessions | src/commands/workspace_cmds.rs:410-414 | of two workspaces, only the one with `chatSessions` is selected, and it contributes its session file |
| Scenarios.LimitOneKeepsNewer | src/commands/workspace_cmds.rs:602-605 | with limit 1, of two files the one modified later is the only result, in either listing order |
| Scenarios.EmptyCustomTitleFallsBack | src/commands/workspace_cmds.rs:656-691 | an empty custom title yields the first short `"text"` value |
| Scenarios.EarlyFileSkipped | src/commands/workspace_cmds.rs:497-501 | a file dated before `after` is skipped and adds one to the skip count |
| GitStatus.ParseStatusLine | tests/git_tracking_tests.rs:176-193 | lines shorter than 4 bytes give none; otherwise the status comes from the first byte and the path is `line[3..]` trimmed |
| GitStatus.ParseRender | tests/git_tracking_tests.rs:176-193 | parsing a rendered line returns its status and path, whatever the second column and the whitespace around the path |
| GitStatus.LetterRoundTrip | tests/git_tracking_tests.rs:184-190 | each status is read back from its letter |
| GitStatus.AddedExample | tests/git_tracking_tests.rs:195-199 | "A  new_file.rs" parses as Added "new_file.rs" |
| GitStatus.ModifiedExample | tests/git_tracking_tests.rs:201-208 | "M  modified_file.rs" parses as Modified |
| GitStatus.DeletedExample | tests/git_tracking_tests.rs:210-217 | "D  deleted_file.rs" parses as Deleted |
| GitStatus.RenamedExample | tests/git_tracking_tests.rs:219-229 | "R  old_name.rs -> new_name.rs" parses as Renamed with the whole arrow text as path |
| GitStatus.UntrackedExample | tests/git_tracking_tests.rs:231-238 | "?? untracked.rs" parses as Added |
| GitStatus.ShortLineExample | tests/git_tracking_tests.rs:240-244 | "x" gives none |
| CommitHash.CheckCommitHash | tests/git_tracking_tests.rs:252-260 | accepts iff the length is 7 to 64 and every character is a hex digit |
| CommitHash.ShortAndFullExclusive | tests/git_tracking_tests.rs:262-268 | no hash is both short and full; a hex short or full hash is valid |
| CommitHash.ValidButNeitherShortNorFull | tests/git_tracking_tests.rs:252-268 | a valid hash of 41 to 63 digits is neither short nor full |
| CommitHash.FullHashExample | tests/git_tracking_tests.rs:270-275 | the 40-digit test hash is valid and full |
| CommitHash.ShortHashExample | tests/git_tracking_tests.rs:277-282 | "abc123d" is valid and short |
| CommitHash.RejectedHashExamples | tests/git_tracking_tests.rs:284-300 | "abc12", "abc123g" and "" are not valid |
| DiffParsing.ParseDiffLine | tests/git_tracking_tests.rs:400-412 | an empty line gives none; a result's marker is the line's first byte and its content is the rest |
| DiffParsing.ParseRender | tests/git_tracking_tests.rs:400-412 | parsing a rendered diff line gives it back |
| DiffParsing.RenderParse | tests/git_tracking_tests.rs:400-412 | a parsed line renders to its text, and parsing fails iff the line is empty or starts with no marker |
| DiffParsing.KindsPartition | tests/git_tracking_tests.rs:414-425 | additions, deletions and context lines add up to all lines |
| DiffParsing.CountChanges | tests/git_tracking_tests.rs:414-425 | the loop returns the number of additions and of deletions |
| DiffParsing.CountExample | tests/git_tracking_tests.rs:448-472 | the test's four lines count 2 additions and 1 deletion |
| SessionCommits.AddCommit | tests/git_tracking_tests.rs:492-497 | adding appends the hash to the session's list, creating it if needed, and leaves other sessions unchanged |
| SessionCommits.GetCommits | tests/git_tracking_tests.rs:499-501 | the list is returned iff the session is known |
| SessionCommits.GetSessionForCommit | tests/git_tracking_tests.rs:503-510 | a returned session holds the hash; none is returned iff no session holds it |
| SessionCommits.UniqueHolderFound | tests/git_tracking_tests.rs:503-510 | when one session alone holds the hash it is found, whatever the map's iteration order |
| SessionCommits.AddedCommitIsFound | tests/git_tracking_tests.rs:492-510 | after adding a hash, looking it up finds a session |
| SessionCommits.CommitMapExamples | tests/git_tracking_tests.rs:514-560 | the tests' single-commit, three-commit, two-session and empty-map outcomes |
| SessionCommits.FindByCommitExample | tests/git_tracking_tests.rs:550-554 | "commit-b" is found in "session-2" |
| DateRange.BoundariesIncluded | tests/git_tracking_tests.rs:742-744 | both ends of a non-empty range are within it |
| DateRange.ReversedRangeIsEmpty | tests/git_tracking_tests.rs:742-744 | a range whose start exceeds its end holds nothing |
| DateRange.WiderRangeKeeps | tests/git_tracking_tests.rs:742-744 | widening a range keeps every timestamp it held |
| DateRange.RangeExamples | tests/git_tracking_tests.rs:746-780 | the tests' in-range, before, after and boundary outcomes |

## Left out

- Unicode case folding and whitespace: `to_lowercase` and `trim` are modelled on ASCII only; non-ASCII bytes are left unchanged and are never whitespace.
- The filesystem, `serde_json` parsing of `workspace.json`, `decode_workspace_folder`, `discover_workspaces` and `get_chat_sessions_from_workspace`: their results are inputs.
- `normalize_path` is the parameter `normalize`, and chrono's date parser is the parameter `parse`.
- Moments have years 0 to 9999, so the stamp is always 16 bytes. Later years, which chrono renders with more digits, are not modelled.
- `Path::file_name` and `file_stem` are modelled with Unix semantics: only "/" separates components.
- Workspaces.Label: when the project path gives no file name, requires the hash cut at `min(8, len)` to fall on a character boundary (`LabelCutIsClean`). Only then is the hash sliced, and a cut inside a character would panic; that panic is not modelled. Workspace hashes are ASCII, so the cut is always clean for them.
- SessionScan.Index: carries the same requirement for every directory it labels.
- Search.FindSessionsFiltered: carries the same requirement (`CleanSelection`) for the workspace directories the search selects and labels, and for no others.
- Search.FindSessionsFiltered: the title and workspace columns use the corrected truncation of the finding below, so a ranked row whose cut falls inside a character is listed, where the code as written panics. `Search.DisplayAgreesAsWritten` states that the rows agree wherever the code as written does not panic.
- Search.Display: uses the corrected truncation, for the same reason; the panic of the code as written is stated by `Truncation.TruncateAsWritten`.
- GitStatus.ParseStatusLine: requires byte offsets 2 and 3 to be character boundaries on lines of four bytes or more, because the source's slices panic otherwise. That panic is not modelled.
- Escaped quotes inside JSON strings are not recognised. The source's scanner does not recognise them either.
- The metadata is read twice in the source, once for the date check and once for the stamp. The model reads one snapshot per file.
- The rayon parallel scan is modelled as a sequential pass. `filter_map().collect()` keeps input order, and the atomic counters are plain sums.
- Table printing, colours and the row layout of `find_sessions` are left out; the model stops at the sessions found and their workspaces.
- `ChatSession::title()` and `request_count()` are not part of this model. A session's title arrives as a field.
- The `HashMap` iteration order in `get_session_for_commit` is unspecified, so it is the parameter `order`.
- The git command shell-outs in the test file are not part of this model.

## Findings

| source | as written | input that shows it | evidently intended | confidence | as-written member | corrected member |
|---|---|---|---|---|---|---|
| src/commands/workspace_cmds.rs:699-705 | `&s[..max_len.saturating_sub(3)]` slices at a byte offset that can fall inside a multi-byte character, which panics | a title of 21 × 'é' (42 bytes) shown in the 40-byte title column: the cut at byte 37 is inside the 19th character | back off to the previous character boundary and append "..." | not executed | Truncation.TruncateAsWritten, Truncation.AccentedTitlePanics | Truncation.Truncate, Truncation.TruncateKeepsText |

=== FILE: commit_hash.dfy ===
/** Commit hash validation (`is_valid_commit_hash`, `is_short_hash`,
    `is_full_hash`): an abbreviated or full git object name.
 */
module CommitHash {
  import opened Common

  const MinLength: nat := 7
  const MaxLength: nat := 64
  /** A SHA-1 object name. */
  const Sha1Length: nat := 40
  /** A SHA-256 object name. */
  const Sha256Length: nat := 64

  /** Rust `char::is_ascii_hexdigit`. Bytes of multi-byte characters are never hex
      digits, so testing bytes tests characters. */
  predicate IsHexDigit(b: byte) {
    ('0' as int <= b <= '9' as int) || ('a' as int <= b <= 'f' as int) || ('A' as int <= b <= 'F' as int)
  }

  predicate AllHex(h: Bytes) {
    forall i :: 0 <= i < |h| ==> IsHexDigit(h[i])
  }

  /** A commit hash: 7 to 64 hexadecimal digits. */
  predicate IsValidCommitHash(h: Bytes) {
    MinLength <= |h| <= MaxLength && AllHex(h)
  }

  /** `is_valid_commit_hash`: the length check, then one pass over the characters
      that stops at the first non-hex one. */
  method CheckCommitHash(h: Bytes) returns (ok: bool)
    ensures ok <==> IsValidCommitHash(h)
  {
    if !(MinLength <= |h| <= MaxLength) {
      return false;
    }
    var i := 0;
    while i < |h|
      invariant 0 <= i <= |h|
      invariant forall j :: 0 <= j < i ==> IsHexDigit(h[j])
    {
      if !IsHexDigit(h[i]) {
        return false;
      }
      i := i + 1;
    }
    return true;
  }

  /** `is_short_hash`: a length an abbreviated name can have. */
  predicate IsShortHash(h: Bytes) {
    |h| >= MinLength && |h| < Sha1Length
  }

  /** `is_full_hash`: the length of a full SHA-1 or SHA-256 name. */
  predicate IsFullHash(h: Bytes) {
    |h| == Sha1Length || |h| == Sha256Length
  }

  /** No hash is both short and full; every full or short hex string is valid. */
  lemma ShortAndFullExclusive(h: Bytes)
    ensures !(IsShortHash(h) && IsFullHash(h))
    ensures AllHex(h) && (IsShortHash(h) || IsFullHash(h)) ==> IsValidCommitHash(h)
  {
  }

  /** Valid lengths between 41 and 63 are neither short nor full. */
  lemma ValidButNeitherShortNorFull(h: Bytes)
    requires IsValidCommitHash(h) && Sha1Length < |h| < Sha256Length
    ensures !IsShortHash(h) && !IsFullHash(h)
  {
  }

  /** The vectors of the source's tests. */
  lemma FullHashExample()
    ensures IsValidCommitHash(Ascii("abc123def456789012345678901234567890abcd"))
    ensures IsFullHash(Ascii("abc123def456789012345678901234567890abcd"))
  {
    var a, b, c, d := "abc123def4", "5678901234", "5678901234", "567890abcd";
    HexChunks();
    AsciiConcat(a, b);
    AllHexConcat(Ascii(a), Ascii(b));
    var ab := a + b;
    AsciiConcat(ab, c);
    AllHexConcat(Ascii(ab), Ascii(c));
    var abc := ab + c;
    AsciiConcat(abc, d);
    AllHexConcat(Ascii(abc), Ascii(d));
    assert abc + d == "abc123def456789012345678901234567890abcd";
  }

  lemma HexChunks()
    ensures AllHex(Ascii("abc123def4"))
    ensures AllHex(Ascii("5678901234"))
    ensures AllHex(Ascii("567890abcd"))
  {
    HexChunk("abc123def4");
    HexChunk("5678901234");
    HexChunk("567890abcd");
  }

  lemma HexChunk(s: string)
    requires forall i :: 0 <= i < |s| ==> ('0' <= s[i] <= '9') || ('a' <= s[i] <= 'f')
    ensures AllHex(Ascii(s))
  {
    forall i | 0 <= i < |s|
      ensures IsHexDigit(Ascii(s)[i])
    {
      assert Ascii(s)[i] == s[i] as int;
    }
  }

  lemma AllHexConcat(x: Bytes, y: Bytes)
    requires AllHex(x) && AllHex(y)
    ensures AllHex(x + y)
  {
    forall i | 0 <= i < |x + y|
      ensures IsHexDigit((x + y)[i])
    {
      if i < |x| {
        assert (x + y)[i] == x[i];
      } else {
        assert (x + y)[i] == y[i - |x|];
      }
    }
  }

  lemma ShortHashExample()
    ensures IsValidCommitHash(Ascii("abc123d")) && IsShortHash(Ascii("abc123d"))
  {
    HexChunk("abc123d");
  }

  lemma RejectedHashExamples()
    ensures !IsValidCommitHash(Ascii("abc12"))
    ensures !IsValidCommitHash(Ascii("abc123g"))
    ensures !IsValidCommitHash(Ascii(""))
  {
    assert !IsHexDigit(Ascii("abc123g")[6]);
  }
}

=== FILE: common.dfy ===
/** Shared vocabulary: bytes, UTF-8 text as bytes, and the Option wrapper.

    The source works on Rust `&str`/`String` values, whose `len()` and slice
    offsets count UTF-8 bytes, so text is modelled as a sequence of bytes.
 */
module Common {

  type byte = x: int | 0 <= x < 256

  /** UTF-8 encoded text, byte by byte. */
  type Bytes = seq<byte>

  datatype Option<+T> = None | Some(value: T) {

    /** Rust `Option::unwrap_or`. */
    function GetOr(default: T): T {
      match this
      case Some(v) => v
      case None => default
    }
  }

  /** The bytes of an ASCII literal (every character below 128). */
  function Ascii(s: string): (b: Bytes)
    ensures |b| == |s|
    ensures forall i :: 0 <= i < |s| ==> b[i] == (s[i] as int) % 256
  {
    seq(|s|, i requires 0 <= i < |s| => (s[i] as int) % 256)
  }

  lemma AsciiConcat(a: string, b: string)
    ensures Ascii(a + b) == Ascii(a) + Ascii(b)
  {
  }

  /** A UTF-8 continuation byte (10xxxxxx): never the first byte of a character. */
  predicate IsContinuation(b: byte) {
    0x80 <= b < 0xC0
  }

  /** Rust `str::is_char_boundary`: offset `i` starts a character or is the end. */
  predicate IsCharBoundary(s: Bytes, i: int) {
    0 <= i <= |s| && (i == 0 || i == |s| || !IsContinuation(s[i]))
  }

  /** The length of the UTF-8 encoding announced by its first byte; 0 for a byte
      that cannot start a character. */
  function CharWidth(lead: byte): nat {
    if lead < 0x80 then 1
    else if 0xC2 <= lead < 0xE0 then 2
    else if 0xE0 <= lead < 0xF0 then 3
    else if 0xF0 <= lead < 0xF5 then 4
    else 0
  }

  /** Well-formed UTF-8 at the level of character structure: every character is a
      lead byte followed by the continuation bytes it announces. */
  predicate ValidUtf8(s: Bytes)
    decreases |s|
  {
    |s| == 0 ||
    (var n := CharWidth(s[0]);
     && 0 < n <= |s|
     && (forall i :: 1 <= i < n ==> IsContinuation(s[i]))
     && ValidUtf8(s[n..]))
  }

  /** Text in which every byte is ASCII, so bytes and characters coincide. */
  predicate IsAscii(s: Bytes) {
    forall i :: 0 <= i < |s| ==> s[i] < 0x80
  }

  const Quote: byte := '"' as int
  const Colon: byte := ':' as int

  function Min(a: int, b: int): int {
    if a <= b then a else b
  }
}

=== FILE: date_range.dfy ===
/** The inclusive time-range test (`is_within_range`) on 64-bit signed
    timestamps.
 */
module DateRange {
  /** Rust `i64`. */
  type i64 = x: int | -0x8000_0000_0000_0000 <= x < 0x8000_0000_0000_0000

  /** `is_within_range`. */
  predicate IsWithinRange(timestamp: i64, start: i64, end: i64) {
    timestamp >= start && timestamp <= end
  }

  /** Both ends of a non-empty range belong to it. */
  lemma BoundariesIncluded(start: i64, end: i64)
    requires start <= end
    ensures IsWithinRange(start, start, end) && IsWithinRange(end, start, end)
  {
  }

  /** A reversed range holds nothing. */
  lemma ReversedRangeIsEmpty(t: i64, start: i64, end: i64)
    requires start > end
    ensures !IsWithinRange(t, start, end)
  {
  }

  /** Widening a range keeps what it held. */
  lemma WiderRangeKeeps(t: i64, start: i64, end: i64, start2: i64, end2: i64)
    requires IsWithinRange(t, start, end) && start2 <= start && end <= end2
    ensures IsWithinRange(t, start2, end2)
  {
  }

  /** The source's tests. */
  lemma RangeExamples()
    ensures IsWithinRange(1700050000, 1700000000, 1700100000)
    ensures !IsWithinRange(1699900000, 1700000000, 1700100000)
    ensures !IsWithinRange(1700200000, 1700000000, 1700100000)
    ensures IsWithinRange(1700000000, 1700000000, 1700100000)
    ensures IsWithinRange(1700100000, 1700000000, 1700100000)
  {
  }
}

=== FILE: diff_parsing.dfy ===
/** Unified-diff body lines (`parse_diff_line`, `count_changes`): a marker byte
    (`+`, `-` or space) followed by the line's content.
 */
module DiffParsing {
  import opened Common

  datatype DiffKind = Context | Addition | Deletion

  datatype DiffLine = DiffLine(kind: DiffKind, content: Bytes)

  function Marker(k: DiffKind): byte {
    match k
    case Addition => '+' as int
    case Deletion => '-' as int
    case Context => ' ' as int
  }

  /** `parse_diff_line`: the marker names the kind, the rest is the content; any
      other first character, or an empty line, is not a diff body line. */
  function ParseDiffLine(line: Bytes): (r: Option<DiffLine>)
    ensures line == [] ==> r.None?
    ensures r.Some? ==> |line| > 0 && line[0] == Marker(r.value.kind) && r.value.content == line[1..]
  {
    if line == [] then None
    else if line[0] == '+' as int then Some(DiffLine(Addition, line[1..]))
    else if line[0] == '-' as int then Some(DiffLine(Deletion, line[1..]))
    else if line[0] == ' ' as int then Some(DiffLine(Context, line[1..]))
    else None
  }

  /** The text of a diff line. */
  function Render(d: DiffLine): Bytes {
    [Marker(d.kind)] + d.content
  }

  /** Rendering then parsing gives the line back. */
  lemma ParseRender(d: DiffLine)
    ensures ParseDiffLine(Render(d)) == Some(d)
  {
    assert Render(d)[1..] == d.content;
  }

  /** A parsed line renders to the text it came from, and a line is rejected exactly
      when it does not start with one of the three markers. */
  lemma RenderParse(line: Bytes)
    ensures ParseDiffLine(line).Some? ==> Render(ParseDiffLine(line).value) == line
    ensures ParseDiffLine(line).None? <==>
      line == [] || (line[0] != '+' as int && line[0] != '-' as int && line[0] != ' ' as int)
  {
    if line != [] {
      assert line == [line[0]] + line[1..];
    }
  }

  /** How many lines are of kind `k`. */
  function CountKind(lines: seq<DiffLine>, k: DiffKind): (n: nat)
    ensures n <= |lines|
  {
    if lines == [] then 0
    else (if lines[0].kind == k then 1 else 0) + CountKind(lines[1..], k)
  }

  /** Every line is of exactly one kind. */
  lemma {:induction false} KindsPartition(lines: seq<DiffLine>)
    ensures CountKind(lines, Addition) + CountKind(lines, Deletion) + CountKind(lines, Context) == |lines|
  {
    if lines != [] {
      KindsPartition(lines[1..]);
    }
  }

  /** `count_changes`: the numbers of additions and of deletions, counted in one pass. */
  method CountChanges(lines: seq<DiffLine>) returns (additions: nat, deletions: nat)
    ensures additions == CountKind(lines, Addition)
    ensures deletions == CountKind(lines, Deletion)
    ensures additions + deletions <= |lines|
  {
    additions, deletions := 0, 0;
    var i := |lines|;
    while i > 0
      invariant 0 <= i <= |lines|
      invariant additions == CountKind(lines[i..], Addition)
      invariant deletions == CountKind(lines[i..], Deletion)
      invariant additions + deletions <= |lines| - i
    {
      i := i - 1;
      assert lines[i..][1..] == lines[i + 1..];
      if lines[i].kind == Addition {
        additions := additions + 1;
      } else if lines[i].kind == Deletion {
        deletions := deletions + 1;
      }
    }
    assert lines[0..] == lines;
  }

  /** The source's example: context, two additions, one deletion. */
  lemma CountExample()
    ensures var lines := [DiffLine(Context, Ascii("a")), DiffLine(Addition, Ascii("b")),
                          DiffLine(Addition, Ascii("c")), DiffLine(Deletion, Ascii("d"))];
      CountKind(lines, Addition) == 2 && CountKind(lines, Deletion) == 1
  {
    var lines := [DiffLine(Context, Ascii("a")), DiffLine(Addition, Ascii("b")),
                  DiffLine(Addition, Ascii("c")), DiffLine(Deletion, Ascii("d"))];
    assert lines[1..][1..][1..][1..] == [];
  }
}

=== FILE: git_status.dfy ===
/** Parsing a line of `git status --porcelain` output (`parse_git_status_line`):
    two status columns, a space, then the path.
 */
module GitStatus {
  import opened Common
  import opened Text

  datatype FileStatus = Added | Modified | Deleted | Renamed | Unknown

  /** The status named by the first column; `?` (untracked) counts as added. A
      non-ASCII first character matches none of the letters. */
  function StatusOf(first: byte): FileStatus {
    if first == 'A' as int || first == '?' as int then Added
    else if first == 'M' as int then Modified
    else if first == 'D' as int then Deleted
    else if first == 'R' as int then Renamed
    else Unknown
  }

  /** The letter that `StatusOf` reads back as each status. */
  function Letter(s: FileStatus): byte {
    match s
    case Added => 'A' as int
    case Modified => 'M' as int
    case Deleted => 'D' as int
    case Renamed => 'R' as int
    case Unknown => 'X' as int
  }

  /** The slices `line[0..2]` and `line[3..]` are only taken on lines of four bytes
      or more, and Rust panics unless both offsets are character boundaries. */
  predicate SlicesAreClean(line: Bytes) {
    |line| < 4 || (IsCharBoundary(line, 2) && IsCharBoundary(line, 3))
  }

  /** `parse_git_status_line`. */
  function ParseStatusLine(line: Bytes): (r: Option<(FileStatus, Bytes)>)
    requires SlicesAreClean(line)
    ensures r.None? <==> |line| < 4
    ensures r.Some? ==> r.value.0 == StatusOf(line[0])
    ensures r.Some? ==> r.value.1 == Trim(line[3..])
  {
    if |line| < 4 then None
    else Some((StatusOf(line[0]), Trim(line[3..])))
  }

  /** A trimmed path: non-empty, with no whitespace at either end. */
  predicate IsTrimmedPath(path: Bytes) {
    path != [] && !IsWhitespace(path[0]) && !IsWhitespace(path[|path| - 1])
  }

  /** The porcelain line for a status and a path. */
  function Render(s: FileStatus, second: byte, path: Bytes): Bytes {
    [Letter(s), second, ' ' as int] + path
  }

  lemma CleanAfterHead(head: Bytes, body: Bytes)
    requires |head| == 3 && head[1] < 0x80 && head[2] < 0x80
    requires |body| >= 1 && !IsContinuation(body[0])
    ensures SlicesAreClean(head + body)
  {
    assert (head + body)[3] == body[0];
  }

  /** A padded path starts with an ASCII blank or with the path's own first byte. */
  lemma PaddedStartsClean(front: Bytes, path: Bytes, back: Bytes)
    requires path != [] && ValidUtf8(path)
    requires AllWhitespace(front)
    ensures !IsContinuation((front + path + back)[0])
  {
    if front == [] {
      assert (front + path + back)[0] == path[0];
    } else {
      assert (front + path + back)[0] == front[0];
    }
  }

  lemma ParseWithTrimmed(line: Bytes, path: Bytes)
    requires SlicesAreClean(line) && |line| >= 4 && Trim(line[3..]) == path
    ensures ParseStatusLine(line) == Some((StatusOf(line[0]), path))
  {
  }

  /** Parsing a rendered line gives back the status and the path, whatever the
      second column holds and whatever whitespace surrounds the path. */
  lemma ParseRender(s: FileStatus, second: byte, front: Bytes, path: Bytes, back: Bytes)
    requires second < 0x80
    requires IsTrimmedPath(path) && ValidUtf8(path)
    requires AllWhitespace(front) && AllWhitespace(back)
    ensures SlicesAreClean(Render(s, second, front + path + back))
    ensures ParseStatusLine(Render(s, second, front + path + back)) == Some((s, path))
  {
    var body := front + path + back;
    var line := Render(s, second, body);
    PaddedStartsClean(front, path, back);
    RenderedIsClean(s, second, body);
    assert line[3..] == body && line[0] == Letter(s);
    TrimPadded(front, path, back);
    ParseWithTrimmed(line, path);
    LetterRoundTrip(s);
  }

  /** A rendered line is clean at the cuts the parser makes when its body does not
      start inside a character. */
  lemma RenderedIsClean(s: FileStatus, second: byte, body: Bytes)
    requires second < 0x80
    requires |body| >= 1 && !IsContinuation(body[0])
    ensures SlicesAreClean(Render(s, second, body))
  {
    CleanAfterHead([Letter(s), second, ' ' as int], body);
  }

  /** Every status survives the letter round trip. */
  lemma LetterRoundTrip(s: FileStatus)
    ensures StatusOf(Letter(s)) == s
  {
  }

  /** A three-byte ASCII head followed by a trimmed path. */
  lemma ExampleLine(head: Bytes, path: Bytes)
    requires |head| == 3 && head[1] < 0x80 && head[2] < 0x80
    requires IsTrimmedPath(path) && path[0] < 0x80
    ensures SlicesAreClean(head + path)
    ensures ParseStatusLine(head + path) == Some((StatusOf(head[0]), path))
  {
    CleanAfterHead(head, path);
    var line := head + path;
    assert line[3..] == [] + path + [];
    assert line[0] == head[0];
    TrimPadded([], path, []);
    ParseWithTrimmed(line, path);
  }

  /** A test line: a three-byte ASCII head and a trimmed ASCII path. */
  lemma ExampleVector(head: string, path: string, status: FileStatus)
    requires |head| == 3 && StatusOf(Ascii(head)[0]) == status
    requires Ascii(head)[1] < 0x80 && Ascii(head)[2] < 0x80
    requires IsTrimmedPath(Ascii(path)) && Ascii(path)[0] < 0x80
    ensures ParseStatusLine(Ascii(head + path)) == Some((status, Ascii(path)))
  {
    AsciiConcat(head, path);
    ExampleLine(Ascii(head), Ascii(path));
  }

  /** The vectors of the source's tests. */
  lemma AddedExample()
    ensures ParseStatusLine(Ascii("A  new_file.rs")) == Some((Added, Ascii("new_file.rs")))
  {
    assert "A  new_file.rs" == "A  " + "new_file.rs";
    ExampleVector("A  ", "new_file.rs", Added);
  }

  lemma UntrackedExample()
    ensures ParseStatusLine(Ascii("?? untracked.rs")) == Some((Added, Ascii("untracked.rs")))
  {
    assert "?? untracked.rs" == "?? " + "untracked.rs";
    ExampleVector("?? ", "untracked.rs", Added);
  }

  lemma ModifiedExample()
    ensures ParseStatusLine(Ascii("M  modified_file.rs")) == Some((Modified, Ascii("modified_file.rs")))
  {
    assert "M  modified_file.rs" == "M  " + "modified_file.rs";
    ExampleVector("M  ", "modified_file.rs", Modified);
  }

  lemma DeletedExample()
    ensures ParseStatusLine(Ascii("D  deleted_file.rs")) == Some((Deleted, Ascii("deleted_file.rs")))
  {
    assert "D  deleted_file.rs" == "D  " + "deleted_file.rs";
    ExampleVector("D  ", "deleted_file.rs", Deleted);
  }

  lemma RenamedExample()
    ensures ParseStatusLine(Ascii("R  old_name.rs -> new_name.rs"))
         == Some((Renamed, Ascii("old_name.rs -> new_name.rs")))
  {
    assert "R  old_name.rs -> new_name.rs" == "R  " + "old_name.rs -> new_name.rs";
    ExampleVector("R  ", "old_name.rs -> new_name.rs", Renamed);
  }

  lemma ShortLineExample()
    ensures ParseStatusLine(Ascii("x")) == None
  {
  }
}

=== FILE: ranking.dfy ===
/** Ranking of search results: a stable sort on the `modified` string, newest
    first (`results.sort_by(|a, b| b.2.cmp(&a.2))`), then `truncate(limit)`.
 */
module Ranking {
  import opened Common
  import opened Text
  import opened Timestamps
  import opened SessionScan

  /** Non-increasing `modified` strings, position by position. */
  predicate SortedDesc(hs: seq<Hit>) {
    forall i, j :: 0 <= i < j < |hs| ==> LexLe(hs[j].modified, hs[i].modified)
  }

  /** Places `h` before the first element whose stamp is not greater than its own,
      so that among equal stamps it stays in front of the later input. */
  function Insert(h: Hit, s: seq<Hit>): (r: seq<Hit>)
    ensures |r| == |s| + 1
    ensures multiset(r) == multiset(s) + multiset{h}
  {
    if s == [] || LexLe(s[0].modified, h.modified) then [h] + s
    else
      assert s == [s[0]] + s[1..];
      [s[0]] + Insert(h, s[1..])
  }

  /** Rust's stable `sort_by` with the reversed comparison. */
  function Sort(hs: seq<Hit>): (r: seq<Hit>)
    ensures |r| == |hs|
    ensures multiset(r) == multiset(hs)
  {
    if hs == [] then []
    else
      assert hs == [hs[0]] + hs[1..];
      Insert(hs[0], Sort(hs[1..]))
  }

  lemma {:induction false} InsertSorted(h: Hit, s: seq<Hit>)
    requires SortedDesc(s)
    ensures SortedDesc(Insert(h, s))
    decreases |s|
  {
    if s == [] || LexLe(s[0].modified, h.modified) {
      forall j | 0 <= j < |s|
        ensures LexLe(s[j].modified, h.modified)
      {
        if j > 0 {
          LexLeTransitive(s[j].modified, s[0].modified, h.modified);
        }
      }
      ConsSorted(h, s);
    } else {
      LexLeTotal(s[0].modified, h.modified);
      SortedTail(s);
      InsertSorted(h, s[1..]);
      var t := Insert(h, s[1..]);
      forall j | 0 <= j < |t|
        ensures LexLe(t[j].modified, s[0].modified)
      {
        assert t[j] in multiset(t);
        if t[j] != h {
          assert t[j] in multiset(s[1..]);
          var k :| 0 <= k < |s| - 1 && s[1..][k] == t[j];
          assert s[k + 1] == t[j];
        }
      }
      ConsSorted(s[0], t);
    }
  }

  /** A hit no older than everything in a sorted sequence may go in front of it. */
  lemma ConsSorted(x: Hit, t: seq<Hit>)
    requires SortedDesc(t)
    requires forall j :: 0 <= j < |t| ==> LexLe(t[j].modified, x.modified)
    ensures SortedDesc([x] + t)
  {
    var r := [x] + t;
    forall i, j | 0 <= i < j < |r|
      ensures LexLe(r[j].modified, r[i].modified)
    {
      if i > 0 {
        assert r[i] == t[i - 1] && r[j] == t[j - 1];
      } else {
        assert r[j] == t[j - 1];
      }
    }
  }

  lemma SortedTail(s: seq<Hit>)
    requires SortedDesc(s) && s != []
    ensures SortedDesc(s[1..])
  {
    forall i, j | 0 <= i < j < |s| - 1
      ensures LexLe(s[1..][j].modified, s[1..][i].modified)
    {
      assert s[1..][j] == s[j + 1] && s[1..][i] == s[i + 1];
    }
  }

  /** The sort orders its output by non-increasing stamp. */
  lemma {:induction false} SortSorted(hs: seq<Hit>)
    ensures SortedDesc(Sort(hs))
    decreases |hs|
  {
    if hs != [] {
      SortSorted(hs[1..]);
      InsertSorted(hs[0], Sort(hs[1..]));
    }
  }

  /** The hits carrying stamp `k`, in order. */
  function WithStamp(hs: seq<Hit>, k: Bytes): (r: seq<Hit>)
    ensures forall h :: h in r ==> h in hs && h.modified == k
  {
    if hs == [] then []
    else (if hs[0].modified == k then [hs[0]] else []) + WithStamp(hs[1..], k)
  }

  lemma WithStampCons(x: Hit, t: seq<Hit>, k: Bytes)
    ensures WithStamp([x] + t, k) == (if x.modified == k then [x] else []) + WithStamp(t, k)
  {
    assert ([x] + t)[1..] == t;
  }

  lemma {:induction false} InsertWithStamp(h: Hit, s: seq<Hit>, k: Bytes)
    ensures WithStamp(Insert(h, s), k) == (if h.modified == k then [h] else []) + WithStamp(s, k)
    decreases |s|
  {
    if s == [] || LexLe(s[0].modified, h.modified) {
      WithStampCons(h, s, k);
    } else {
      InsertWithStamp(h, s[1..], k);
      WithStampCons(s[0], Insert(h, s[1..]), k);
      WithStampCons(s[0], s[1..], k);
      assert s == [s[0]] + s[1..];
      assert s[0].modified != h.modified;
    }
  }

  /** Stability: hits with equal stamps keep their relative input order. */
  lemma {:induction false} SortIsStable(hs: seq<Hit>, k: Bytes)
    ensures WithStamp(Sort(hs), k) == WithStamp(hs, k)
    decreases |hs|
  {
    if hs != [] {
      SortIsStable(hs[1..], k);
      InsertWithStamp(hs[0], Sort(hs[1..]), k);
    }
  }

  /** The ranked results: the first `limit` hits of the sorted sequence. */
  function Rank(hits: seq<Hit>, limit: nat): (r: seq<Hit>)
    ensures |r| == Min(limit, |hits|)
    ensures r == Sort(hits)[..|r|]
  {
    Sort(hits)[..Min(limit, |hits|)]
  }

  /** The ranked results are in non-increasing stamp order, and every hit left out
      by the limit is no newer than any hit kept. */
  lemma RankKeepsNewest(hits: seq<Hit>, limit: nat)
    ensures SortedDesc(Rank(hits, limit))
    ensures forall x, y :: x in Rank(hits, limit) && y in Sort(hits)[Min(limit, |hits|)..] ==>
      LexLe(y.modified, x.modified)
  {
    SortSorted(hits);
    SortedDescCut(Sort(hits), Min(limit, |hits|));
  }

  /** Cutting a sorted sequence leaves a sorted front whose every element is no
      older than anything behind the cut. */
  lemma SortedDescCut(s: seq<Hit>, n: nat)
    requires SortedDesc(s) && n <= |s|
    ensures SortedDesc(s[..n])
    ensures forall x, y :: x in s[..n] && y in s[n..] ==> LexLe(y.modified, x.modified)
  {
    forall x, y | x in s[..n] && y in s[n..]
      ensures LexLe(y.modified, x.modified)
    {
      var i :| 0 <= i < n && s[..n][i] == x;
      var j :| 0 <= j < |s| - n && s[n..][j] == y;
      assert s[i] == x && s[n + j] == y;
    }
  }

  /** Ranking reorders and cuts, it does not invent results. */
  lemma RankFromHits(hits: seq<Hit>, limit: nat)
    ensures multiset(Rank(hits, limit)) <= multiset(hits)
  {
    var s := Sort(hits);
    var n := Min(limit, |hits|);
    assert s == s[..n] + s[n..];
    assert multiset(s) == multiset(s[..n]) + multiset(s[n..]);
  }

  /** The "results limited" notice. */
  predicate LimitNotice(rows: seq<Hit>, limit: nat) {
    |rows| >= limit
  }

  /** The notice appears exactly when at least `limit` results matched, so also when
      exactly `limit` matched and nothing was cut. */
  lemma LimitNoticeWhenFull(hits: seq<Hit>, limit: nat)
    ensures LimitNotice(Rank(hits, limit), limit) <==> |hits| >= limit
  {
  }

  /** Between two known modification times the ranking is chronological: a row
      never comes before a strictly newer one. */
  lemma RankingIsChronological(rows: seq<Hit>, i: nat, j: nat, a: Moment, b: Moment)
    requires SortedDesc(rows) && i < j < |rows|
    requires rows[i].modified == Format(a) && rows[j].modified == Format(b)
    ensures !MomentBefore(a, b)
  {
    FormatOrder(b, a);
    FormatOrder(a, b);
    LexLessAsymmetric(Format(a), Format(b));
  }

  /** "unknown" sorts above every rendered time, so results whose modification time
      could not be read come first. */
  lemma UnknownRanksFirst(rows: seq<Hit>, i: nat, j: nat, t: Moment)
    requires SortedDesc(rows) && i < |rows| && j < |rows|
    requires rows[i].modified == Unknown && rows[j].modified == Format(t)
    ensures i < j
  {
    UnknownAboveFormat(t);
    LexLessAsymmetric(Format(t), Unknown);
    LexLessIrreflexive(Unknown);
  }
}

=== FILE: scenarios.dfy ===
/** Concrete situations the session search is expected to handle, stated over the
    model: one workspace without sessions, the limit keeping the newest file, an
    empty custom title, and a date bound that drops a file.
 */
module Scenarios {
  import opened Common
  import opened Text
  import opened Timestamps
  import opened TitleScan
  import opened Workspaces
  import opened SessionScan
  import opened Ranking

  /** Of two workspaces, only the one with a `chatSessions` directory contributes
      candidates: here its single session file. */
  lemma OnlyWorkspaceWithSessions(w1: Workspace, w2: Workspace, id: Bytes, f: SessionFile)
    requires w1.hasChatSessions && !w2.hasChatSessions && LabelCutIsClean(w1)
    requires id != [] && f.name == id + [DotByte] + JsonExt
    ensures Selected([StorageDir(w1, [f]), StorageDir(w2, [])], None) == [StorageDir(w1, [f])]
    ensures Index(Selected([StorageDir(w1, [f]), StorageDir(w2, [])], None))
         == [Candidate(f, Label(w1))]
  {
    StemOfSessionName(id);
    var d1 := StorageDir(w1, [f]);
    var dirs := [d1, StorageDir(w2, [])];
    assert dirs[1..][1..] == [];
    assert Selected(dirs, None) == [d1];
    assert [d1][1..] == [];
    assert [f][1..] == [];
  }

  /** With an empty pattern, no date bounds and limit 1, of two readable files the
      one modified later is the only result, in whichever order the directory lists
      them. */
  lemma LimitOneKeepsNewer(c: Criteria, older: Candidate, newer: Candidate, a: Moment, b: Moment)
    requires c.pattern == [] && c.after.None? && c.before.None?
    requires older.file.content.Some? && newer.file.content.Some?
    requires older.file.modified == Some(a) && newer.file.modified == Some(b)
    requires MomentBefore(a, b)
    ensures |Rank(KeptHits(c, [older, newer]), 1)| == 1
    ensures Rank(KeptHits(c, [older, newer]), 1)[0] == Evaluate(c, newer).hit
    ensures Rank(KeptHits(c, [newer, older]), 1) == [Evaluate(c, newer).hit]
  {
    var ho := Evaluate(c, older).hit;
    var hn := Evaluate(c, newer).hit;
    BothKept(c, older, newer);
    BothKept(c, newer, older);
    FormatOrder(a, b);
    NewerOfTwoFirst(ho, hn);
    NewerListedFirst(ho, hn);
  }

  lemma BothKept(c: Criteria, older: Candidate, newer: Candidate)
    requires c.pattern == [] && c.after.None? && c.before.None?
    requires older.file.content.Some? && newer.file.content.Some?
    ensures Evaluate(c, older).Kept? && Evaluate(c, newer).Kept?
    ensures KeptHits(c, [older, newer]) == [Evaluate(c, older).hit, Evaluate(c, newer).hit]
  {
    ReadableKept(c, older);
    ReadableKept(c, newer);
    KeptPair(c, older, newer);
  }

  lemma KeptPair(c: Criteria, a: Candidate, b: Candidate)
    requires Evaluate(c, a).Kept? && Evaluate(c, b).Kept?
    ensures KeptHits(c, [a, b]) == [Evaluate(c, a).hit, Evaluate(c, b).hit]
  {
    assert KeptHits(c, [a]) == [Evaluate(c, a).hit] by {
      assert [a][..0] == [];
    }
    assert [a, b][..1] == [a];
  }

  lemma ReadableKept(c: Criteria, cand: Candidate)
    requires c.pattern == [] && c.after.None? && c.before.None?
    requires cand.file.content.Some?
    ensures Evaluate(c, cand).Kept?
  {
    assert !SkippedByDate(c, cand.file.modified);
  }

  lemma NewerOfTwoFirst(ho: Hit, hn: Hit)
    requires LexLess(ho.modified, hn.modified)
    ensures Rank([ho, hn], 1) == [hn]
  {
    LexLessAsymmetric(ho.modified, hn.modified);
    assert !LexLe(hn.modified, ho.modified);
    assert [ho, hn][1..] == [hn];
    assert Sort([hn]) == [hn];
    assert Sort([ho, hn]) == Insert(ho, [hn]);
  }

  lemma NewerListedFirst(ho: Hit, hn: Hit)
    requires LexLess(ho.modified, hn.modified)
    ensures Rank([hn, ho], 1) == [hn]
  {
    LexLessAsymmetric(ho.modified, hn.modified);
    assert LexLe(ho.modified, hn.modified);
    assert [hn, ho][1..] == [ho];
    assert Sort([ho]) == [ho];
    assert Sort([hn, ho]) == Insert(hn, [ho]);
  }

  /** A document whose first `"customTitle"` holds the empty string takes its
      title from the first `"text"` value instead. */
  lemma EmptyCustomTitleFallsBack(content: Bytes, pre: Bytes, mid: Bytes, ws: Bytes, rest: Bytes,
                                  pre2: Bytes, mid2: Bytes, ws2: Bytes, text: Bytes, rest2: Bytes)
    requires KeyValueShape(content, CustomTitleKey, pre, mid, ws, [], rest)
    requires KeyValueShape(content, TextKey, pre2, mid2, ws2, text, rest2)
    requires text != [] && |text| < FallbackLimit
    ensures ExtractTitle(content) == Some(text)
  {
    RejectedCustomFallsBack(content, pre, mid, ws, [], rest);
    TitleFromText(content, pre2, mid2, ws2, text, rest2);
  }

  /** A file modified before the `after` bound is dropped by the date check and
      adds exactly one to the skip count. */
  lemma EarlyFileSkipped(c: Criteria, cands: seq<Candidate>, cand: Candidate, t: Moment)
    requires c.after.Some? && c.before.None?
    requires cand.file.modified == Some(t) && DateBefore(t.date, c.after.value)
    ensures Evaluate(c, cand) == DateSkipped
    ensures SkippedCount(c, cands + [cand]) == SkippedCount(c, cands) + 1
    ensures KeptHits(c, cands + [cand]) == KeptHits(c, cands)
  {
    assert (cands + [cand])[..|cands|] == cands;
  }
}

=== FILE: search.dfy ===
/** The whole `find_sessions_filtered` command as one function from its inputs to
    what it reports.

    The filesystem is an input: what the storage root turns out to be, and the list
    of workspace directories with their session files. Date bounds arrive as text and
    are parsed by `parse` (chrono's "%Y-%m-%d" parser); a bound that does not parse
    is dropped, exactly like an absent one.
 */
module Search {
  import opened Common
  import opened Text
  import opened Timestamps
  import opened TitleScan
  import opened Truncation
  import opened Workspaces
  import opened SessionScan
  import opened Ranking

  const TitleWidth: nat := 40
  const WorkspaceWidth: nat := 20

  /** The storage root as the command finds it: its location cannot be determined,
      it does not exist, it cannot be listed, or it is present and lists the workspace directories. */
  datatype Storage =
    | Unlocated
    | Missing
    | Unlistable
    | Present(dirs: seq<StorageDir>)

  /** The command-line arguments of the search. */
  datatype Request = Request(pattern: Bytes, filter: Option<Bytes>, titleOnly: bool,
                             searchContent: bool, after: Option<Bytes>, before: Option<Bytes>,
                             limit: nat)

  /** A displayed result row. */
  datatype Row = Row(title: Bytes, workspace: Bytes, modified: Bytes, messages: nat, matchTag: Bytes)

  /** What the command reports. `Failed` is the command returning an error. */
  datatype Report =
    | Failed
    | NoStorage
    | NoWorkspaces(filter: Option<Bytes>)
    | NoMatches(skipped: nat)
    | Listing(rows: seq<Row>, scanned: nat, total: nat, skipped: nat, limited: bool)

  /** A date bound as the search uses it. */
  function ParseBound(text: Option<Bytes>, parse: Bytes -> Option<Date>): Option<Date> {
    match text
    case None => None
    case Some(t) => parse(t)
  }

  /** The scan criteria a request asks for, with its bounds parsed. */
  function CriteriaOf(q: Request, parse: Bytes -> Option<Date>): Criteria {
    Criteria(q.pattern, q.titleOnly, q.searchContent, ParseBound(q.after, parse), ParseBound(q.before, parse))
  }

  /** A hit as displayed: title cut to 40 bytes, workspace label to 20. */
  function Display(h: Hit): (r: Row)
    ensures |r.title| <= TitleWidth && |r.workspace| <= WorkspaceWidth
    ensures r.modified == h.modified && r.messages == h.messages && r.matchTag == Tag(h.kind)
    ensures |h.title| <= TitleWidth ==> r.title == h.title
  {
    Row(Truncate(h.title, TitleWidth), Truncate(h.workspace, WorkspaceWidth),
        h.modified, h.messages, Tag(h.kind))
  }

  /** Wherever the truncation as written returns instead of panicking, the row is
      exactly the one it prints. */
  lemma DisplayAgreesAsWritten(h: Hit)
    requires TruncateAsWritten(h.title, TitleWidth).Returned?
    requires TruncateAsWritten(h.workspace, WorkspaceWidth).Returned?
    ensures Display(h) == Row(TruncateAsWritten(h.title, TitleWidth).text,
                              TruncateAsWritten(h.workspace, WorkspaceWidth).text,
                              h.modified, h.messages, Tag(h.kind))
  {
    AsWrittenAgrees(h.title, TitleWidth);
    AsWrittenAgrees(h.workspace, WorkspaceWidth);
  }

  function DisplayAll(hs: seq<Hit>): (r: seq<Row>)
    ensures |r| == |hs|
    ensures forall i :: 0 <= i < |hs| ==> r[i] == Display(hs[i])
  {
    if hs == [] then [] else [Display(hs[0])] + DisplayAll(hs[1..])
  }

  /** Every workspace the search labels has a hash whose label cut is clean. */
  predicate CleanSelection(dirs: seq<StorageDir>, filter: Option<Bytes>) {
    forall d :: d in Selected(dirs, filter) ==> LabelCutIsClean(d.workspace)
  }

  /** `find_sessions_filtered`. */
  function FindSessionsFiltered(storage: Storage, q: Request, parse: Bytes -> Option<Date>): (r: Report)
    requires storage.Present? ==> CleanSelection(storage.dirs, q.filter)
    ensures r.Failed? <==> storage.Unlocated? || storage.Unlistable?
    ensures r.NoStorage? <==> storage.Missing?
    ensures r.NoWorkspaces? <==> storage.Present? && Selected(storage.dirs, q.filter) == []
    ensures r.NoWorkspaces? ==> r.filter == q.filter
    ensures r.Listing? || r.NoMatches? ==> storage.Present?
    ensures r.Listing? && storage.Present? ==>
      var c := CriteriaOf(q, parse);
      var cands := Index(Selected(storage.dirs, q.filter));
      var hits := KeptHits(c, cands);
      && hits != []
      && r.rows == DisplayAll(Rank(hits, q.limit))
      && r.total == |cands| && r.scanned + r.skipped == r.total
      && r.scanned == ScannedCount(c, cands) && r.skipped == SkippedCount(c, cands)
      && |r.rows| == Min(q.limit, |hits|)
      && (r.limited <==> |hits| >= q.limit)
      && (forall i, j :: 0 <= i < j < |r.rows| ==> LexLe(r.rows[j].modified, r.rows[i].modified))
    ensures r.NoMatches? && storage.Present? ==>
      var c := CriteriaOf(q, parse);
      var cands := Index(Selected(storage.dirs, q.filter));
      KeptHits(c, cands) == [] && r.skipped == SkippedCount(c, cands)
  {
    match storage
    case Unlocated => Failed
    case Missing => NoStorage
    case Unlistable => Failed
    case Present(dirs) =>
      var selected := Selected(dirs, q.filter);
      if selected == [] then NoWorkspaces(q.filter)
      else
        var c := CriteriaOf(q, parse);
        var cands := Index(selected);
        var hits := KeptHits(c, cands);
        var skipped := SkippedCount(c, cands);
        if hits == [] then NoMatches(skipped)
        else
          var ranked := Rank(hits, q.limit);
          RankKeepsNewest(hits, q.limit);
          ScannedPlusSkipped(c, cands);
          var rows := DisplayAll(ranked);
          Listing(rows, ScannedCount(c, cands), |cands|, skipped, LimitNotice(ranked, q.limit))
  }

  /** Each ranked hit is the hit of some candidate. */
  lemma RankedHitFromCandidate(c: Criteria, cands: seq<Candidate>, limit: nat, k: nat)
    requires k < |Rank(KeptHits(c, cands), limit)|
    ensures exists i :: 0 <= i < |cands| && Evaluate(c, cands[i]) == Kept(Rank(KeptHits(c, cands), limit)[k])
  {
    var hits := KeptHits(c, cands);
    var ranked := Rank(hits, limit);
    RankFromHits(hits, limit);
    assert ranked[k] in multiset(ranked);
    KeptHitsMembership(c, cands, ranked[k]);
  }

  /** The row shows the hit some candidate produced. */
  predicate ShowsCandidate(c: Criteria, cands: seq<Candidate>, row: Row) {
    exists i :: 0 <= i < |cands| && Evaluate(c, cands[i]).Kept? && row == Display(Evaluate(c, cands[i]).hit)
  }

  /** Every listed row shows the hit of some session file of a selected workspace. */
  lemma ListedRowsShowSessionFiles(dirs: seq<StorageDir>, q: Request, parse: Bytes -> Option<Date>, k: nat)
    requires CleanSelection(dirs, q.filter)
    requires FindSessionsFiltered(Present(dirs), q, parse).Listing?
    requires k < |FindSessionsFiltered(Present(dirs), q, parse).rows|
    ensures ShowsCandidate(CriteriaOf(q, parse), Index(Selected(dirs, q.filter)),
                           FindSessionsFiltered(Present(dirs), q, parse).rows[k])
  {
    var r := FindSessionsFiltered(Present(dirs), q, parse);
    var c := CriteriaOf(q, parse);
    var cands := Index(Selected(dirs, q.filter));
    var ranked := Rank(KeptHits(c, cands), q.limit);
    assert r.rows == DisplayAll(ranked);
    RankedHitFromCandidate(c, cands, q.limit, k);
    var i :| 0 <= i < |cands| && Evaluate(c, cands[i]) == Kept(ranked[k]);
    assert Evaluate(c, cands[i]).Kept? && r.rows[k] == Display(Evaluate(c, cands[i]).hit);
  }

  /** A bound that does not parse is treated as no bound at all (the search does not
      reject it), for either bound. */
  lemma UnparseableBoundIsIgnored(storage: Storage, q: Request, parse: Bytes -> Option<Date>)
    requires storage.Present? ==> CleanSelection(storage.dirs, q.filter)
    ensures q.after.Some? && parse(q.after.value).None? ==>
      FindSessionsFiltered(storage, q, parse) == FindSessionsFiltered(storage, q.(after := None), parse)
    ensures q.before.Some? && parse(q.before.value).None? ==>
      FindSessionsFiltered(storage, q, parse) == FindSessionsFiltered(storage, q.(before := None), parse)
  {
  }
}

=== FILE: session_commits.dfy ===
/** The association between chat sessions and git commits (`SessionCommitMap`):
    for each session id, the hashes of the commits made during it, in the order
    they were recorded.
 */
module SessionCommits {
  import opened Common

  type Associations = map<Bytes, seq<Bytes>>

  /** `SessionCommitMap::new`. */
  const Empty: Associations := map[]

  /** The commits recorded so far for `session` (none when it is unknown). */
  function CommitsOf(m: Associations, session: Bytes): seq<Bytes> {
    if session in m then m[session] else []
  }

  /** `add_commit`: appends the hash to the session's list, creating it if needed. */
  function AddCommit(m: Associations, session: Bytes, commit: Bytes): (r: Associations)
    ensures r.Keys == m.Keys + {session}
    ensures |r[session]| == |CommitsOf(m, session)| + 1
    ensures r[session][..|r[session]| - 1] == CommitsOf(m, session)
    ensures r[session][|r[session]| - 1] == commit
    ensures forall s :: s in m && s != session ==> r[s] == m[s]
  {
    var r := m[session := CommitsOf(m, session) + [commit]];
    assert r[session][..|r[session]| - 1] == CommitsOf(m, session);
    r
  }

  /** `get_commits`. */
  function GetCommits(m: Associations, session: Bytes): (r: Option<seq<Bytes>>)
    ensures r.Some? <==> session in m
    ensures r.Some? ==> r.value == m[session]
  {
    if session in m then Some(m[session]) else None
  }

  /** `order` lists the sessions of `m` in the map's iteration order, which Rust's
      `HashMap` leaves unspecified. */
  predicate EnumeratesKeys(order: seq<Bytes>, m: Associations) {
    && (forall s :: s in order ==> s in m)
    && (forall s :: s in m ==> s in order)
  }

  /** `get_session_for_commit`: the first session, in iteration order, whose list
      holds the hash. */
  function GetSessionForCommit(m: Associations, commit: Bytes, order: seq<Bytes>): (r: Option<Bytes>)
    requires EnumeratesKeys(order, m)
    ensures r.Some? ==> r.value in m && commit in m[r.value]
    ensures r.None? <==> forall s :: s in m ==> commit !in m[s]
  {
    FirstHolding(m, commit, order)
  }

  function FirstHolding(m: Associations, commit: Bytes, order: seq<Bytes>): (r: Option<Bytes>)
    requires forall s :: s in order ==> s in m
    ensures r.Some? ==> r.value in order && commit in m[r.value]
    ensures r.None? <==> forall s :: s in order ==> commit !in m[s]
  {
    if order == [] then None
    else if commit in m[order[0]] then Some(order[0])
    else FirstHolding(m, commit, order[1..])
  }

  /** When one session alone holds the hash, it is found whatever the iteration
      order. */
  lemma UniqueHolderFound(m: Associations, commit: Bytes, session: Bytes, order: seq<Bytes>)
    requires EnumeratesKeys(order, m)
    requires session in m && commit in m[session]
    requires forall s :: s in m && s != session ==> commit !in m[s]
    ensures GetSessionForCommit(m, commit, order) == Some(session)
  {
  }

  /** A recorded commit can always be traced back to a session. */
  lemma AddedCommitIsFound(m: Associations, session: Bytes, commit: Bytes, order: seq<Bytes>)
    requires EnumeratesKeys(order, AddCommit(m, session, commit))
    ensures GetSessionForCommit(AddCommit(m, session, commit), commit, order).Some?
  {
    var r := AddCommit(m, session, commit);
    assert commit == r[session][|r[session]| - 1];
  }

  /** The source's tests: one commit, three commits, two sessions, lookup by hash,
      lookup in an empty map. */
  lemma CommitMapExamples(order: seq<Bytes>)
    ensures var m := AddCommit(Empty, Ascii("session-1"), Ascii("commit-a"));
      GetCommits(m, Ascii("session-1")) == Some([Ascii("commit-a")])
    ensures var m := AddCommit(AddCommit(AddCommit(Empty, Ascii("session-1"), Ascii("commit-a")),
                                         Ascii("session-1"), Ascii("commit-b")),
                               Ascii("session-1"), Ascii("commit-c"));
      |GetCommits(m, Ascii("session-1")).value| == 3
    ensures var m := AddCommit(AddCommit(Empty, Ascii("session-1"), Ascii("commit-a")),
                               Ascii("session-2"), Ascii("commit-b"));
      && GetCommits(m, Ascii("session-1")).Some?
      && GetCommits(m, Ascii("session-2")).Some?
      && GetCommits(m, Ascii("session-3")).None?
    ensures EnumeratesKeys(order, Empty) ==> GetSessionForCommit(Empty, Ascii("unknown"), order).None?
  {
    assert Ascii("session-3")[8] != Ascii("session-1")[8];
    assert Ascii("session-3")[8] != Ascii("session-2")[8];
  }

  lemma FindByCommitExample(order: seq<Bytes>)
    requires EnumeratesKeys(order, AddCommit(AddCommit(Empty, Ascii("session-1"), Ascii("commit-a")),
                                             Ascii("session-2"), Ascii("commit-b")))
    ensures GetSessionForCommit(AddCommit(AddCommit(Empty, Ascii("session-1"), Ascii("commit-a")),
                                          Ascii("session-2"), Ascii("commit-b")),
                                Ascii("commit-b"), order) == Some(Ascii("session-2"))
  {
    var m := AddCommit(AddCommit(Empty, Ascii("session-1"), Ascii("commit-a")),
                       Ascii("session-2"), Ascii("commit-b"));
    assert Ascii("session-1")[8] != Ascii("session-2")[8];
    assert Ascii("commit-a")[7] != Ascii("commit-b")[7];
    assert m[Ascii("session-1")] == [Ascii("commit-a")];
    UniqueHolderFound(m, Ascii("commit-b"), Ascii("session-2"), order);
  }
}

=== FILE: session_scan.dfy ===
/** The session search's candidate index and per-candidate step
    (`find_sessions_filtered`).

    Every selected workspace contributes the `.json` files of its `chatSessions`
    directory, each paired with the workspace label. Each candidate then goes
    through the date check, the content read, the title heuristic, the match
    classification and the message count. The source runs this step on a thread
    pool with two shared counters; `filter_map(..).collect()` keeps the input order,
    so a sequential pass over the candidates computes the same results and counts.
 */
module SessionScan {
  import opened Common
  import opened Text
  import opened Timestamps
  import opened TitleScan
  import opened Workspaces

  const DotByte: byte := '.' as int
  const JsonExt: Bytes := Ascii("json")
  const Untitled: Bytes := Ascii("Untitled")

  /** The marker whose occurrences approximate the number of messages. */
  const MessageKey: Bytes := Ascii("\"message\":")

  /** An entry of a `chatSessions` directory: its file name, its modification time
      (`None` when the metadata cannot be read) and its text (`None` when reading it
      fails). */
  datatype SessionFile = SessionFile(name: Bytes, modified: Option<Moment>, content: Option<Bytes>)

  /** A workspace directory with the listing of its `chatSessions` directory (empty
      when there is none or it cannot be listed). */
  datatype StorageDir = StorageDir(workspace: Workspace, files: seq<SessionFile>)

  /** A session file to examine, with the label of its workspace. */
  datatype Candidate = Candidate(file: SessionFile, wsLabel: Bytes)

  /** Rust `Path::extension` of a file name: what follows the last dot, unless that
      dot starts the name. */
  function Extension(name: Bytes): (r: Option<Bytes>)
    ensures r.Some? ==> DotByte !in r.value
  {
    if name == DotDot then None
    else match RFindByte(name, DotByte)
      case None => None
      case Some(i) => if i == 0 then None else Some(name[i + 1..])
  }

  /** Rust `Path::file_stem` of a file name: what precedes the last dot, unless that
      dot starts the name. */
  function Stem(name: Bytes): Bytes {
    if name == DotDot then name
    else match RFindByte(name, DotByte)
      case None => name
      case Some(i) => if i == 0 then name else name[..i]
  }

  /** A name with an extension is its stem, a dot and the extension. */
  lemma StemDotExtension(name: Bytes)
    requires Extension(name).Some?
    ensures Stem(name) != []
    ensures name == Stem(name) + [DotByte] + Extension(name).value
  {
    var i := RFindByte(name, DotByte).value;
    assert name == name[..i] + [DotByte] + name[i + 1..];
  }

  /** Naming a session `<id>.json` gives back the id as its stem. */
  lemma StemOfSessionName(id: Bytes)
    requires id != []
    ensures Extension(id + [DotByte] + JsonExt) == Some(JsonExt)
    ensures Stem(id + [DotByte] + JsonExt) == id
  {
    var name := id + [DotByte] + JsonExt;
    assert name != DotDot by {
      assert |name| == |id| + 5;
    }
    assert name[|id| + 1..] == JsonExt;
    assert DotByte !in JsonExt;
    RFindByteAt(name, DotByte, |id|);
    assert name[..|id|] == id;
  }

  predicate IsSessionFile(name: Bytes) {
    Extension(name) == Some(JsonExt)
  }

  /** The workspaces the search looks into, in storage order. */
  function Selected(dirs: seq<StorageDir>, filter: Option<Bytes>): (r: seq<StorageDir>)
    ensures |r| <= |dirs|
    ensures forall d :: d in r <==> d in dirs && KeepForSearch(d.workspace, filter)
  {
    if dirs == [] then []
    else
      var here := if KeepForSearch(dirs[0].workspace, filter) then [dirs[0]] else [];
      here + Selected(dirs[1..], filter)
  }

  /** Each kept directory is selected exactly as often as it is listed, and no
      other directory is. */
  lemma {:induction false} SelectedCount(dirs: seq<StorageDir>, filter: Option<Bytes>, d: StorageDir)
    ensures multiset(Selected(dirs, filter))[d]
         == if KeepForSearch(d.workspace, filter) then multiset(dirs)[d] else 0
  {
    if dirs != [] {
      var here := if KeepForSearch(dirs[0].workspace, filter) then [dirs[0]] else [];
      assert Selected(dirs, filter) == here + Selected(dirs[1..], filter);
      assert dirs == [dirs[0]] + dirs[1..];
      assert multiset(dirs) == multiset{dirs[0]} + multiset(dirs[1..]);
      SelectedCount(dirs[1..], filter, d);
    }
  }

  /** Listing order is kept: selecting from two runs of directories selects from
      the first, then from the second. */
  lemma {:induction false} SelectedConcat(a: seq<StorageDir>, b: seq<StorageDir>, filter: Option<Bytes>)
    ensures Selected(a + b, filter) == Selected(a, filter) + Selected(b, filter)
  {
    if a == [] {
      assert a + b == b;
    } else {
      var here := if KeepForSearch(a[0].workspace, filter) then [a[0]] else [];
      assert (a + b)[0] == a[0];
      assert (a + b)[1..] == a[1..] + b;
      assert Selected(a + b, filter) == here + Selected(a[1..] + b, filter);
      SelectedConcat(a[1..], b, filter);
      assert Selected(a, filter) == here + Selected(a[1..], filter);
    }
  }

  /** The files the candidates stand for, in order. */
  function FilesOf(cs: seq<Candidate>): (fs: seq<SessionFile>)
    ensures |fs| == |cs| && forall i :: 0 <= i < |cs| ==> fs[i] == cs[i].file
  {
    seq(|cs|, i requires 0 <= i < |cs| => cs[i].file)
  }

  lemma FilesOfConcat(a: seq<Candidate>, b: seq<Candidate>)
    ensures FilesOf(a + b) == FilesOf(a) + FilesOf(b)
  {
  }

  /** Every entry of every listed directory, in listing order. */
  function AllFiles(dirs: seq<StorageDir>): seq<SessionFile> {
    if dirs == [] then [] else dirs[0].files + AllFiles(dirs[1..])
  }

  /** The session files of one workspace, paired with its label. */
  function DirCandidates(files: seq<SessionFile>, wsLabel: Bytes): (r: seq<Candidate>)
    ensures |r| <= |files|
    ensures forall c :: c in r <==> c.file in files && IsSessionFile(c.file.name) && c.wsLabel == wsLabel
  {
    if files == [] then [] else EntryCandidates(files[0], wsLabel) + DirCandidates(files[1..], wsLabel)
  }

  /** The candidates one directory entry contributes: itself if it is a `.json` file. */
  function EntryCandidates(file: SessionFile, wsLabel: Bytes): seq<Candidate> {
    if IsSessionFile(file.name) then [Candidate(file, wsLabel)] else []
  }

  lemma EntryCount(file: SessionFile, wsLabel: Bytes, f: SessionFile)
    ensures multiset(FilesOf(EntryCandidates(file, wsLabel)))[f]
         == if IsSessionFile(f.name) then multiset([file])[f] else 0
  {
    if IsSessionFile(file.name) {
      assert FilesOf(EntryCandidates(file, wsLabel)) == [file];
    } else {
      assert FilesOf(EntryCandidates(file, wsLabel)) == [];
    }
  }

  lemma DirCandidatesCons(file: SessionFile, rest: seq<SessionFile>, wsLabel: Bytes)
    ensures DirCandidates([file] + rest, wsLabel) == EntryCandidates(file, wsLabel) + DirCandidates(rest, wsLabel)
  {
    assert ([file] + rest)[0] == file;
    assert ([file] + rest)[1..] == rest;
  }

  /** Each `.json` entry is a candidate as often as it is listed, and nothing else is. */
  lemma {:induction false} DirCandidatesCount(files: seq<SessionFile>, wsLabel: Bytes, f: SessionFile)
    ensures multiset(FilesOf(DirCandidates(files, wsLabel)))[f]
         == if IsSessionFile(f.name) then multiset(files)[f] else 0
  {
    if files != [] {
      var here := EntryCandidates(files[0], wsLabel);
      var rest := DirCandidates(files[1..], wsLabel);
      assert files == [files[0]] + files[1..];
      assert multiset(files)[f] == multiset([files[0]])[f] + multiset(files[1..])[f];
      FilesOfConcat(here, rest);
      assert multiset(FilesOf(here + rest))[f] == multiset(FilesOf(here))[f] + multiset(FilesOf(rest))[f];
      EntryCount(files[0], wsLabel, f);
      DirCandidatesCount(files[1..], wsLabel, f);
    }
  }

  /** Listing order is kept: the candidates of two listings in a row are those of
      the first followed by those of the second. */
  lemma {:induction false} DirCandidatesConcat(a: seq<SessionFile>, b: seq<SessionFile>, wsLabel: Bytes)
    ensures DirCandidates(a + b, wsLabel) == DirCandidates(a, wsLabel) + DirCandidates(b, wsLabel)
  {
    if a == [] {
      assert a + b == b;
    } else {
      assert a + b == [a[0]] + (a[1..] + b);
      DirCandidatesCons(a[0], a[1..] + b, wsLabel);
      DirCandidatesConcat(a[1..], b, wsLabel);
    }
  }

  /** The flat candidate list over the selected workspaces (the `flat_map`). */
  function Index(dirs: seq<StorageDir>): seq<Candidate>
    requires forall d :: d in dirs ==> LabelCutIsClean(d.workspace)
  {
    if dirs == [] then [] else DirCandidates(dirs[0].files, Label(dirs[0].workspace)) + Index(dirs[1..])
  }

  /** The candidates are the `.json` entries of the directories, each with its
      directory's label. */
  lemma {:induction false} IndexMembership(dirs: seq<StorageDir>)
    requires forall d :: d in dirs ==> LabelCutIsClean(d.workspace)
    ensures forall c :: c in Index(dirs) <==> exists d ::
      d in dirs && c.file in d.files && IsSessionFile(c.file.name) && c.wsLabel == Label(d.workspace)
  {
    if dirs != [] {
      IndexMembership(dirs[1..]);
      assert forall d :: d in dirs <==> d == dirs[0] || d in dirs[1..];
    }
  }

  /** Each `.json` entry of the directories is a candidate as often as it is listed
      (so the candidate count is the number of `.json` entries), and nothing else is. */
  lemma {:induction false} IndexCount(dirs: seq<StorageDir>, f: SessionFile)
    requires forall d :: d in dirs ==> LabelCutIsClean(d.workspace)
    ensures multiset(FilesOf(Index(dirs)))[f] == if IsSessionFile(f.name) then multiset(AllFiles(dirs))[f] else 0
  {
    if dirs != [] {
      var here := DirCandidates(dirs[0].files, Label(dirs[0].workspace));
      var rest := Index(dirs[1..]);
      assert Index(dirs) == here + rest;
      FilesOfConcat(here, rest);
      assert multiset(FilesOf(here + rest)) == multiset(FilesOf(here)) + multiset(FilesOf(rest));
      assert multiset(AllFiles(dirs)) == multiset(dirs[0].files) + multiset(AllFiles(dirs[1..]));
      DirCandidatesCount(dirs[0].files, Label(dirs[0].workspace), f);
      IndexCount(dirs[1..], f);
    }
  }

  /** The `flat_map` order: the candidates of two runs of directories are those of
      the first run followed by those of the second. */
  lemma {:induction false} IndexConcat(a: seq<StorageDir>, b: seq<StorageDir>)
    requires forall d :: d in a ==> LabelCutIsClean(d.workspace)
    requires forall d :: d in b ==> LabelCutIsClean(d.workspace)
    ensures Index(a + b) == Index(a) + Index(b)
  {
    if a == [] {
      assert a + b == b;
    } else {
      IndexConcat(a[1..], b);
      IndexOfConcat(a, b);
    }
  }

  lemma IndexOfConcat(a: seq<StorageDir>, b: seq<StorageDir>)
    requires a != []
    requires forall d :: d in a ==> LabelCutIsClean(d.workspace)
    requires forall d :: d in b ==> LabelCutIsClean(d.workspace)
    ensures Index(a + b) == DirCandidates(a[0].files, Label(a[0].workspace)) + Index(a[1..] + b)
  {
    assert (a + b)[0] == a[0];
    assert (a + b)[1..] == a[1..] + b;
  }

  /** One directory contributes exactly its own candidates. */
  lemma IndexOfOne(d: StorageDir)
    requires LabelCutIsClean(d.workspace)
    ensures Index([d]) == DirCandidates(d.files, Label(d.workspace))
  {
    assert [d][1..] == [];
  }

  /** What the search was asked for. `after` and `before` are the parsed bounds. */
  datatype Criteria = Criteria(pattern: Bytes, titleOnly: bool, searchContent: bool,
                               after: Option<Date>, before: Option<Date>)

  /** A known modification date outside the inclusive range [after, before]; the
      check only runs when a bound is set. */
  predicate SkippedByDate(c: Criteria, m: Option<Moment>) {
    && (c.after.Some? || c.before.Some?)
    && m.Some?
    && ((c.after.Some? && DateBefore(m.value.date, c.after.value))
        || (c.before.Some? && DateBefore(c.before.value, m.value.date)))
  }

  /** Both bounds are inclusive: a file dated on either bound is kept. */
  lemma BoundsAreInclusive(c: Criteria, t: Moment)
    requires c.after.Some? ==> !DateBefore(t.date, c.after.value)
    requires c.before.Some? ==> !DateBefore(c.before.value, t.date)
    ensures !SkippedByDate(c, Some(t))
    ensures c.after == Some(t.date) && c.before == Some(t.date) ==> !SkippedByDate(c, Some(t))
  {
  }

  /** A file whose modification time cannot be read is never skipped by date. */
  lemma UnknownDateNeverSkipped(c: Criteria)
    ensures !SkippedByDate(c, None)
  {
  }

  /** Which test made a candidate match; `Listed` when the pattern is empty. */
  datatype MatchKind = Listed | ById | ByTitle | ByContent

  /** The "Match" column. */
  function Tag(k: MatchKind): Bytes {
    match k
    case Listed => []
    case ById => Ascii("ID")
    case ByTitle => Ascii("title")
    case ByContent => Ascii("content")
  }

  /** The match decision for a candidate with session id `id`, display title `title`
      and text `content`: tests are tried in the order id, title, content and the
      first that succeeds names the match; content is searched only on request. */
  function Classify(c: Criteria, id: Bytes, title: Bytes, content: Bytes): (r: Option<MatchKind>)
    ensures c.pattern == [] ==> r == Some(Listed)
    ensures r == Some(Listed) ==> c.pattern == []
    ensures c.pattern != [] ==> (r == Some(ById) <==> Contains(Lower(id), Lower(c.pattern)))
    ensures r == Some(ByTitle) <==>
      && c.pattern != []
      && !Contains(Lower(id), Lower(c.pattern))
      && Contains(Lower(title), Lower(c.pattern))
    ensures r == Some(ByContent) <==>
      && c.pattern != [] && c.searchContent && !c.titleOnly
      && !Contains(Lower(id), Lower(c.pattern))
      && !Contains(Lower(title), Lower(c.pattern))
      && Contains(Lower(content), Lower(c.pattern))
  {
    var needle := Lower(c.pattern);
    var idMatches := needle != [] && Contains(Lower(id), needle);
    var titleMatches := needle != [] && Contains(Lower(title), needle);
    var contentMatches :=
      if c.searchContent && !c.titleOnly && !idMatches && !titleMatches && needle != []
      then Contains(Lower(content), needle)
      else false;
    if !(needle == [] || idMatches || titleMatches || contentMatches) then None
    else if needle == [] then Some(Listed)
    else if idMatches then Some(ById)
    else if titleMatches then Some(ByTitle)
    else Some(ByContent)
  }

  /** One row of the search result, before display truncation. */
  datatype Hit = Hit(title: Bytes, workspace: Bytes, modified: Bytes, messages: nat, kind: MatchKind)

  /** What happens to one candidate. */
  datatype Verdict = DateSkipped | Unreadable | NotMatched | Kept(hit: Hit)

  /** The closure run for each candidate. */
  function Evaluate(c: Criteria, cand: Candidate): (v: Verdict)
    ensures v.DateSkipped? <==> SkippedByDate(c, cand.file.modified)
    ensures v.Unreadable? <==> !SkippedByDate(c, cand.file.modified) && cand.file.content.None?
    ensures v.NotMatched? || v.Kept? ==>
      && cand.file.content.Some?
      && (v.Kept? <==> Classify(c, Stem(cand.file.name), Title(cand.file.content.value),
                                cand.file.content.value).Some?)
    ensures v.Kept? ==>
      && Some(v.hit.kind) == Classify(c, Stem(cand.file.name), v.hit.title, cand.file.content.value)
      && v.hit.title == Title(cand.file.content.value)
      && v.hit.workspace == cand.wsLabel
      && v.hit.modified == Stamp(cand.file.modified)
      && v.hit.messages == Occurrences(cand.file.content.value, MessageKey)
  {
    if SkippedByDate(c, cand.file.modified) then DateSkipped
    else match cand.file.content
      case None => Unreadable
      case Some(content) =>
        var title := Title(content);
        match Classify(c, Stem(cand.file.name), title, content)
        case None => NotMatched
        case Some(kind) =>
          MessageKeyNoSelfOverlap();
          CountMatchesIsOccurrences(content, MessageKey);
          Kept(Hit(title, cand.wsLabel, Stamp(cand.file.modified),
                   CountMatches(content, MessageKey), kind))
  }

  /** The display title: the extracted one, or "Untitled". */
  function Title(content: Bytes): (r: Bytes)
    ensures r != []
  {
    ExtractTitle(content).GetOr(Untitled)
  }

  /** No proper suffix of `"message":` is also a prefix of it, so its leftmost
      non-overlapping matches are all of its occurrences. */
  lemma MessageKeyNoSelfOverlap()
    ensures NoSelfOverlap(MessageKey)
  {
    MessageKeyBytes();
    var p := MessageKey;
    forall k | 0 < k < |p|
      ensures p[k..] != p[..|p| - k]
    {
      if k == 8 {
        assert p[k..][1] == p[9] != p[1] == p[..|p| - k][1];
      } else {
        assert p[k..][0] == p[k] != p[0] == p[..|p| - k][0];
      }
    }
  }

  /** The bytes of `"message":`. */
  lemma MessageKeyBytes()
    ensures MessageKey == [0x22, 0x6d, 0x65, 0x73, 0x73, 0x61, 0x67, 0x65, 0x22, 0x3a]
  {
  }

  /** The results of the candidates, in order (defined from the back, as the scan
      accumulates them). */
  function KeptHits(c: Criteria, cands: seq<Candidate>): seq<Hit>
  {
    if cands == [] then []
    else
      var v := Evaluate(c, cands[|cands| - 1]);
      KeptHits(c, cands[..|cands| - 1]) + (if v.Kept? then [v.hit] else [])
  }

  /** How many candidates the date check drops. */
  function SkippedCount(c: Criteria, cands: seq<Candidate>): nat
  {
    if cands == [] then 0
    else
      var here := if Evaluate(c, cands[|cands| - 1]).DateSkipped? then 1 else 0;
      SkippedCount(c, cands[..|cands| - 1]) + here
  }

  /** How many candidates get past the date check (their content is read). */
  function ScannedCount(c: Criteria, cands: seq<Candidate>): nat
  {
    if cands == [] then 0
    else
      var here := if Evaluate(c, cands[|cands| - 1]).DateSkipped? then 0 else 1;
      ScannedCount(c, cands[..|cands| - 1]) + here
  }

  /** How many scanned candidates could not be read. */
  function UnreadableCount(c: Criteria, cands: seq<Candidate>): nat
  {
    if cands == [] then 0
    else
      var here := if Evaluate(c, cands[|cands| - 1]).Unreadable? then 1 else 0;
      UnreadableCount(c, cands[..|cands| - 1]) + here
  }

  /** The scan: one pass over the candidates collecting results and both counters. */
  method Scan(c: Criteria, cands: seq<Candidate>) returns (hits: seq<Hit>, scanned: nat, skipped: nat)
    ensures hits == KeptHits(c, cands)
    ensures skipped == SkippedCount(c, cands)
    ensures scanned == ScannedCount(c, cands)
    ensures scanned + skipped == |cands|
  {
    hits, scanned, skipped := [], 0, 0;
    for i := 0 to |cands|
      invariant hits == KeptHits(c, cands[..i])
      invariant skipped == SkippedCount(c, cands[..i])
      invariant scanned == ScannedCount(c, cands[..i])
      invariant scanned + skipped == i
    {
      assert cands[..i + 1][..i] == cands[..i];
      var v := Evaluate(c, cands[i]);
      if v.DateSkipped? {
        skipped := skipped + 1;
      } else {
        scanned := scanned + 1;
        if v.Kept? {
          hits := hits + [v.hit];
        }
      }
    }
    assert cands[..|cands|] == cands;
  }

  /** Every candidate is either scanned or skipped by date, never both. */
  lemma {:induction false} ScannedPlusSkipped(c: Criteria, cands: seq<Candidate>)
    ensures ScannedCount(c, cands) + SkippedCount(c, cands) == |cands|
  {
    if cands != [] {
      ScannedPlusSkipped(c, cands[..|cands| - 1]);
    }
  }

  /** One more candidate adds at most its own hit, at the end. */
  lemma KeptHitsSnoc(c: Criteria, cands: seq<Candidate>, cand: Candidate)
    ensures var v := Evaluate(c, cand);
      KeptHits(c, cands + [cand]) == KeptHits(c, cands) + (if v.Kept? then [v.hit] else [])
  {
    assert (cands + [cand])[..|cands|] == cands;
  }

  lemma InConcat<T>(a: seq<T>, b: seq<T>, x: T)
    ensures x in a + b <==> x in a || x in b
  {
  }

  /** A hit is in the results exactly when some candidate produced it. */
  lemma KeptHitsMembership(c: Criteria, cands: seq<Candidate>, h: Hit)
    ensures h in KeptHits(c, cands) <==> exists i :: 0 <= i < |cands| && Evaluate(c, cands[i]) == Kept(h)
  {
    if h in KeptHits(c, cands) {
      KeptHitsSound(c, cands, h);
    }
    if exists i :: 0 <= i < |cands| && Evaluate(c, cands[i]) == Kept(h) {
      var i :| 0 <= i < |cands| && Evaluate(c, cands[i]) == Kept(h);
      KeptHitsComplete(c, cands, i);
    }
  }

  lemma {:induction false} KeptHitsSound(c: Criteria, cands: seq<Candidate>, h: Hit)
    requires h in KeptHits(c, cands)
    ensures exists i :: 0 <= i < |cands| && Evaluate(c, cands[i]) == Kept(h)
  {
    var init := cands[..|cands| - 1];
    var v := Evaluate(c, cands[|cands| - 1]);
    InConcat(KeptHits(c, init), if v.Kept? then [v.hit] else [], h);
    if h in KeptHits(c, init) {
      KeptHitsSound(c, init, h);
      var i :| 0 <= i < |init| && Evaluate(c, init[i]) == Kept(h);
      assert cands[i] == init[i];
    } else {
      assert v == Kept(h);
    }
  }

  lemma {:induction false} KeptHitsComplete(c: Criteria, cands: seq<Candidate>, i: int)
    requires 0 <= i < |cands| && Evaluate(c, cands[i]).Kept?
    ensures Evaluate(c, cands[i]).hit in KeptHits(c, cands)
  {
    var init := cands[..|cands| - 1];
    var v := Evaluate(c, cands[|cands| - 1]);
    var tail := if v.Kept? then [v.hit] else [];
    assert KeptHits(c, cands) == KeptHits(c, init) + tail;
    if i < |init| {
      assert init[i] == cands[i];
      KeptHitsComplete(c, init, i);
      InConcat(KeptHits(c, init), tail, Evaluate(c, cands[i]).hit);
    } else {
      assert i == |cands| - 1;
      InConcat(KeptHits(c, init), tail, v.hit);
    }
  }

  /** Every result comes from a readable candidate whose known modification date
      lies within the requested bounds. */
  lemma ResultsWithinBounds(c: Criteria, cands: seq<Candidate>, h: Hit)
    requires h in KeptHits(c, cands)
    ensures exists i ::
      && 0 <= i < |cands| && Evaluate(c, cands[i]) == Kept(h)
      && var m := cands[i].file.modified;
      && cands[i].file.content.Some?
      && (m.Some? && c.after.Some? ==> !DateBefore(m.value.date, c.after.value))
      && (m.Some? && c.before.Some? ==> !DateBefore(c.before.value, m.value.date))
  {
    KeptHitsMembership(c, cands, h);
  }

  /** With an empty pattern every scanned, readable candidate is a result, listed
      with an empty match tag. */
  lemma {:induction false} EmptyPatternKeepsReadable(c: Criteria, cands: seq<Candidate>)
    requires c.pattern == []
    ensures |KeptHits(c, cands)| + UnreadableCount(c, cands) == ScannedCount(c, cands)
    ensures forall h :: h in KeptHits(c, cands) ==> h.kind == Listed
  {
    if cands != [] {
      var init := cands[..|cands| - 1];
      EmptyPatternKeepsReadable(c, init);
    }
  }

  /** The priority law: when the file's id matches, the match is reported as an id
      match, whatever the title and the content hold. */
  lemma IdMatchWins(c: Criteria, cand: Candidate)
    requires c.pattern != [] && cand.file.content.Some?
    requires !SkippedByDate(c, cand.file.modified)
    requires Contains(Lower(Stem(cand.file.name)), Lower(c.pattern))
    ensures Evaluate(c, cand).Kept? && Evaluate(c, cand).hit.kind == ById
  {
  }

  /** `--title-only` only turns off the content search: ids still match. */
  lemma TitleOnlyKeepsIdMatches(c: Criteria, cand: Candidate)
    requires c.titleOnly
    ensures Evaluate(c, cand).Kept? ==> Evaluate(c, cand).hit.kind != ByContent
    ensures c.pattern != [] && cand.file.content.Some? && !SkippedByDate(c, cand.file.modified)
         && Contains(Lower(Stem(cand.file.name)), Lower(c.pattern))
        ==> Evaluate(c, cand).Kept? && Evaluate(c, cand).hit.kind == ById
  {
    if c.pattern != [] && cand.file.content.Some? && !SkippedByDate(c, cand.file.modified)
       && Contains(Lower(Stem(cand.file.name)), Lower(c.pattern)) {
      IdMatchWins(c, cand);
    }
  }

  /** A session without a title is shown as "Untitled", and that text is matched
      like a real title: searching for "untitled" finds every such session. */
  lemma UntitledIsSearchable(c: Criteria, cand: Candidate)
    requires c.pattern == Ascii("untitled")
    requires !SkippedByDate(c, cand.file.modified)
    requires cand.file.content.Some? && ExtractTitle(cand.file.content.value).None?
    requires !Contains(Lower(Stem(cand.file.name)), Lower(c.pattern))
    ensures Evaluate(c, cand).Kept? && Evaluate(c, cand).hit.kind == ByTitle
  {
    var t := Lower(Untitled);
    assert t == Lower(c.pattern);
    assert OccursAt(t, Lower(c.pattern), 0) by {
      assert t[0..|t|] == t;
    }
  }
}

=== FILE: text.dfy ===
/** The Rust `str` operations the search pipeline relies on, stated over UTF-8 bytes:
    `find`, `contains`, `matches(..).count()`, ASCII lowering, whitespace trimming
    and the byte-wise ordering of `String`.
 */
module Text {
  import opened Common

  /** `pat` occurs in `s` starting at byte offset `i`. */
  predicate OccursAt(s: Bytes, pat: Bytes, i: int) {
    0 <= i && i + |pat| <= |s| && s[i..i + |pat|] == pat
  }

  /** Rust `str::find`: the first offset at which `pat` occurs, if any. */
  function Find(s: Bytes, pat: Bytes): (r: Option<nat>)
    ensures r.Some? ==> OccursAt(s, pat, r.value)
    ensures r.Some? ==> forall j :: 0 <= j < r.value ==> !OccursAt(s, pat, j)
    ensures r.None? ==> forall j :: !OccursAt(s, pat, j)
  {
    FindFrom(s, pat, 0)
  }

  /** The scan behind `Find`, resumed at offset `k` once every earlier offset has failed. */
  function FindFrom(s: Bytes, pat: Bytes, k: nat): (r: Option<nat>)
    requires forall j :: 0 <= j < k ==> !OccursAt(s, pat, j)
    ensures r.Some? ==> k <= r.value && OccursAt(s, pat, r.value)
    ensures r.Some? ==> forall j :: 0 <= j < r.value ==> !OccursAt(s, pat, j)
    ensures r.None? ==> forall j :: !OccursAt(s, pat, j)
    decreases |s| + 1 - k
  {
    if k + |pat| > |s| then None
    else if s[k..k + |pat|] == pat then Some(k)
    else FindFrom(s, pat, k + 1)
  }

  /** `Find` returns exactly the first offset at which the pattern occurs. */
  lemma FindFirstAt(s: Bytes, pat: Bytes, i: nat)
    requires OccursAt(s, pat, i)
    requires forall j :: 0 <= j < i ==> !OccursAt(s, pat, j)
    ensures Find(s, pat) == Some(i)
  {
  }

  lemma OccursAtSingle(s: Bytes, b: byte, j: int)
    ensures OccursAt(s, [b], j) <==> 0 <= j < |s| && s[j] == b
  {
    if 0 <= j < |s| {
      assert s[j..j + 1] == [s[j]];
    }
  }

  /** Rust `str::find` with a one-byte (ASCII) character pattern. */
  function FindByte(s: Bytes, b: byte): (r: Option<nat>)
    ensures r.Some? ==> r.value < |s| && s[r.value] == b
    ensures r.Some? ==> forall j :: 0 <= j < r.value ==> s[j] != b
    ensures r.None? ==> forall j :: 0 <= j < |s| ==> s[j] != b
  {
    assert forall j :: OccursAt(s, [b], j) <==> 0 <= j < |s| && s[j] == b by {
      forall j {
        OccursAtSingle(s, b, j);
      }
    }
    Find(s, [b])
  }

  /** `FindByte` returns exactly the first offset holding the byte. */
  lemma FindByteAt(s: Bytes, b: byte, i: nat)
    requires i < |s| && s[i] == b
    requires forall j :: 0 <= j < i ==> s[j] != b
    ensures FindByte(s, b) == Some(i)
  {
  }

  /** Rust `str::rfind` with a one-byte (ASCII) character pattern: the last offset
      holding the byte. */
  function RFindByte(s: Bytes, b: byte): (r: Option<nat>)
    ensures r.Some? ==> r.value < |s| && s[r.value] == b
    ensures r.Some? ==> forall j :: r.value < j < |s| ==> s[j] != b
    ensures r.None? ==> forall j :: 0 <= j < |s| ==> s[j] != b
    decreases |s|
  {
    if |s| == 0 then None
    else if s[|s| - 1] == b then Some(|s| - 1)
    else RFindByte(s[..|s| - 1], b)
  }

  /** `RFindByte` returns exactly the last offset holding the byte. */
  lemma RFindByteAt(s: Bytes, b: byte, i: nat)
    requires i < |s| && s[i] == b
    requires b !in s[i + 1..]
    ensures RFindByte(s, b) == Some(i)
  {
  }

  /** Rust `str::contains`. */
  function Contains(s: Bytes, pat: Bytes): (b: bool)
    ensures b <==> exists i :: OccursAt(s, pat, i)
  {
    Find(s, pat).Some?
  }

  lemma ContainsEmpty(s: Bytes)
    ensures Contains(s, [])
  {
    assert OccursAt(s, [], 0);
  }

  /** Lowering of one byte: ASCII upper-case letters become lower-case, nothing else changes. */
  function LowerByte(b: byte): byte {
    if 'A' as int <= b <= 'Z' as int then b + 32 else b
  }

  /** Case folding used before every substring test (ASCII model of `to_lowercase`). */
  function Lower(s: Bytes): (r: Bytes)
    ensures |r| == |s|
    ensures forall i :: 0 <= i < |s| ==> r[i] == LowerByte(s[i])
  {
    seq(|s|, i requires 0 <= i < |s| => LowerByte(s[i]))
  }

  lemma LowerIdempotent(s: Bytes)
    ensures Lower(Lower(s)) == Lower(s)
  {
  }

  /** A byte Rust's `char::is_whitespace` accepts: tab, line feed, vertical tab,
      form feed, carriage return and space. */
  predicate IsWhitespace(b: byte) {
    b == 0x20 || 0x09 <= b <= 0x0D
  }

  predicate AllWhitespace(s: Bytes) {
    forall i :: 0 <= i < |s| ==> IsWhitespace(s[i])
  }

  /** The first offset at or after `k` that does not hold whitespace, when every
      byte before `k` does. */
  function SkipLeading(s: Bytes, k: nat): (j: nat)
    requires k <= |s|
    requires forall i :: 0 <= i < k ==> IsWhitespace(s[i])
    ensures k <= j <= |s|
    ensures forall i :: 0 <= i < j ==> IsWhitespace(s[i])
    ensures j == |s| || !IsWhitespace(s[j])
    decreases |s| - k
  {
    if k < |s| && IsWhitespace(s[k]) then SkipLeading(s, k + 1) else k
  }

  /** The offset just past the last non-whitespace byte at or before `k`, when every
      byte from `k` on is whitespace. */
  function SkipTrailing(s: Bytes, k: nat): (j: nat)
    requires k <= |s|
    requires forall i :: k <= i < |s| ==> IsWhitespace(s[i])
    ensures j <= k
    ensures forall i :: j <= i < |s| ==> IsWhitespace(s[i])
    ensures j == 0 || !IsWhitespace(s[j - 1])
  {
    if k > 0 && IsWhitespace(s[k - 1]) then SkipTrailing(s, k - 1) else k
  }

  /** Rust `str::trim_start`: the suffix left after removing leading whitespace. */
  function TrimStart(s: Bytes): (r: Bytes)
    ensures |r| <= |s| && r == s[|s| - |r|..]
    ensures AllWhitespace(s[..|s| - |r|])
    ensures r == [] || !IsWhitespace(r[0])
  {
    s[SkipLeading(s, 0)..]
  }

  /** Rust `str::trim_end`: the prefix left after removing trailing whitespace. */
  function TrimEnd(s: Bytes): (r: Bytes)
    ensures |r| <= |s| && r == s[..|r|]
    ensures AllWhitespace(s[|r|..])
    ensures r == [] || !IsWhitespace(r[|r| - 1])
  {
    s[..SkipTrailing(s, |s|)]
  }

  /** Rust `str::trim`. */
  function Trim(s: Bytes): (r: Bytes)
  {
    TrimEnd(TrimStart(s))
  }

  /** Trimming the front of whitespace-led text recovers what follows the whitespace. */
  lemma TrimStartPadded(front: Bytes, rest: Bytes)
    requires AllWhitespace(front)
    requires rest == [] || !IsWhitespace(rest[0])
    ensures TrimStart(front + rest) == rest
  {
    var s := front + rest;
    assert s[|front|..] == rest;
  }

  /** Trimming the end of whitespace-trailed text recovers what precedes the whitespace. */
  lemma TrimEndPadded(rest: Bytes, back: Bytes)
    requires AllWhitespace(back)
    requires rest == [] || !IsWhitespace(rest[|rest| - 1])
    ensures TrimEnd(rest + back) == rest
  {
    var s := rest + back;
    assert s[..|rest|] == rest;
  }

  /** Trimming recovers the core of any whitespace-padded text. */
  lemma TrimPadded(front: Bytes, core: Bytes, back: Bytes)
    requires AllWhitespace(front) && AllWhitespace(back)
    requires core == [] || (!IsWhitespace(core[0]) && !IsWhitespace(core[|core| - 1]))
    ensures Trim(front + core + back) == core
  {
    if core == [] {
      var s := front + back;
      assert front + core + back == s;
      forall i | 0 <= i < |s|
        ensures IsWhitespace(s[i])
      {
        if i < |front| {
          assert s[i] == front[i];
        } else {
          assert s[i] == back[i - |front|];
        }
      }
      TrimStartPadded(s, []);
      assert s + [] == s;
    } else {
      assert front + core + back == front + (core + back);
      TrimStartPadded(front, core + back);
      TrimEndPadded(core, back);
    }
  }

  /** Rust `str::matches(pat).count()`: leftmost, non-overlapping occurrences. */
  function CountMatches(s: Bytes, pat: Bytes): (n: nat)
    requires |pat| > 0
    ensures n == 0 <==> !Contains(s, pat)
    ensures n <= |s|
    decreases |s|
  {
    match Find(s, pat)
    case None => 0
    case Some(i) => 1 + CountMatches(s[i + |pat|..], pat)
  }

  /** Every offset at which `pat` occurs, overlapping ones included. */
  function Occurrences(s: Bytes, pat: Bytes): nat
    requires |pat| > 0
    decreases |s|
  {
    if |s| < |pat| then 0
    else (if s[..|pat|] == pat then 1 else 0) + Occurrences(s[1..], pat)
  }

  /** No proper suffix of `pat` is also a prefix: two occurrences can never overlap. */
  predicate NoSelfOverlap(pat: Bytes) {
    forall k :: 0 < k < |pat| ==> pat[k..] != pat[..|pat| - k]
  }

  lemma OccursAtShift(s: Bytes, pat: Bytes, j: int)
    requires |s| > 0 && 0 <= j
    ensures OccursAt(s[1..], pat, j) <==> OccursAt(s, pat, j + 1)
  {
    if j + |pat| <= |s| - 1 {
      assert s[1..][j..j + |pat|] == s[j + 1..j + 1 + |pat|];
    }
  }

  /** Offsets before the first occurrence contribute nothing to the count. */
  lemma {:induction false} OccurrencesSkip(s: Bytes, pat: Bytes, k: nat)
    requires |pat| > 0 && k <= |s|
    requires forall j :: 0 <= j < k ==> !OccursAt(s, pat, j)
    ensures Occurrences(s, pat) == Occurrences(s[k..], pat)
    decreases k
  {
    if k > 0 {
      if |s| >= |pat| {
        assert !OccursAt(s, pat, 0);
        assert s[..|pat|] == s[0..|pat|];
      }
      forall j | 0 <= j < k - 1
        ensures !OccursAt(s[1..], pat, j)
      {
        OccursAtShift(s, pat, j);
      }
      OccurrencesSkip(s[1..], pat, k - 1);
      assert s[1..][k - 1..] == s[k..];
    }
  }

  /** A pattern that cannot overlap itself does not occur again inside an occurrence. */
  lemma NoOccurrenceInside(t: Bytes, pat: Bytes, j: nat)
    requires |pat| > 0 && NoSelfOverlap(pat)
    requires |pat| <= |t| && t[..|pat|] == pat
    requires j < |pat| - 1
    ensures !OccursAt(t[1..], pat, j)
  {
    var p := |pat|;
    var k := j + 1;
    OccursAtShift(t, pat, j);
    assert pat[k..] != pat[..p - k];
    if k + p <= |t| {
      // An occurrence at `k` would make the tail of `pat` equal to its head.
      assert t[k..k + p][..p - k] == t[..p][k..];
    }
  }

  /** At the first occurrence of a pattern that cannot overlap itself, the count of
      occurrence offsets is one plus the count after that occurrence. */
  lemma OccurrencesAtFirstMatch(s: Bytes, pat: Bytes, i: nat)
    requires |pat| > 0 && NoSelfOverlap(pat)
    requires OccursAt(s, pat, i)
    requires forall j :: 0 <= j < i ==> !OccursAt(s, pat, j)
    ensures Occurrences(s, pat) == 1 + Occurrences(s[i + |pat|..], pat)
  {
    var p := |pat|;
    OccurrencesSkip(s, pat, i);
    var t := s[i..];
    assert t[..p] == pat;
    assert Occurrences(t, pat) == 1 + Occurrences(t[1..], pat);
    forall j | 0 <= j < p - 1
      ensures !OccursAt(t[1..], pat, j)
    {
      NoOccurrenceInside(t, pat, j);
    }
    OccurrencesSkip(t[1..], pat, p - 1);
    assert t[1..][p - 1..] == s[i + p..];
  }

  /** For a pattern that cannot overlap itself, the leftmost non-overlapping count
      `CountMatches` equals the number of all occurrence offsets. */
  lemma {:induction false} CountMatchesIsOccurrences(s: Bytes, pat: Bytes)
    requires |pat| > 0 && NoSelfOverlap(pat)
    ensures CountMatches(s, pat) == Occurrences(s, pat)
    decreases |s|
  {
    match Find(s, pat)
    case None =>
      OccurrencesSkip(s, pat, |s|);
      assert s[|s|..] == [];
    case Some(i) =>
      OccurrencesAtFirstMatch(s, pat, i);
      CountMatchesIsOccurrences(s[i + |pat|..], pat);
  }

  /** Rust's `Ord` for `str`: byte-wise lexicographic, a proper prefix sorting first. */
  predicate LexLess(a: Bytes, b: Bytes)
    decreases |a|
  {
    |b| > 0 && (|a| == 0 || a[0] < b[0] || (a[0] == b[0] && LexLess(a[1..], b[1..])))
  }

  predicate LexLe(a: Bytes, b: Bytes) {
    a == b || LexLess(a, b)
  }

  lemma {:induction false} LexLessIrreflexive(a: Bytes)
    ensures !LexLess(a, a)
    decreases |a|
  {
    if |a| > 0 {
      LexLessIrreflexive(a[1..]);
    }
  }

  lemma {:induction false} LexLessAsymmetric(a: Bytes, b: Bytes)
    ensures !(LexLess(a, b) && LexLess(b, a))
    decreases |a|
  {
    if |a| > 0 && |b| > 0 && a[0] == b[0] {
      LexLessAsymmetric(a[1..], b[1..]);
    }
  }

  lemma {:induction false} LexLessTransitive(a: Bytes, b: Bytes, c: Bytes)
    requires LexLess(a, b) && LexLess(b, c)
    ensures LexLess(a, c)
    decreases |a|
  {
    if |a| > 0 && a[0] == b[0] && b[0] == c[0] {
      LexLessTransitive(a[1..], b[1..], c[1..]);
    }
  }

  lemma {:induction false} LexLessTotal(a: Bytes, b: Bytes)
    ensures LexLess(a, b) || a == b || LexLess(b, a)
    decreases |a|
  {
    if |a| > 0 && |b| > 0 && a[0] == b[0] {
      LexLessTotal(a[1..], b[1..]);
      if a[1..] == b[1..] {
        assert a == [a[0]] + a[1..] && b == [b[0]] + b[1..];
      }
    }
  }

  lemma LexLeTransitive(a: Bytes, b: Bytes, c: Bytes)
    requires LexLe(a, b) && LexLe(b, c)
    ensures LexLe(a, c)
  {
    if a != b && b != c {
      LexLessTransitive(a, b, c);
    }
  }

  lemma LexLeTotal(a: Bytes, b: Bytes)
    ensures LexLe(a, b) || LexLe(b, a)
  {
    LexLessTotal(a, b);
  }

  /** Comparing two texts that share a prefix of fixed width: the prefixes decide,
      and only on a tie do the rests. */
  lemma {:induction false} LexLessConcat(a1: Bytes, a2: Bytes, b1: Bytes, b2: Bytes)
    requires |a1| == |b1|
    ensures LexLess(a1 + a2, b1 + b2) <==> LexLess(a1, b1) || (a1 == b1 && LexLess(a2, b2))
    decreases |a1|
  {
    if |a1| > 0 {
      assert (a1 + a2)[0] == a1[0] && (b1 + b2)[0] == b1[0];
      assert (a1 + a2)[1..] == a1[1..] + a2;
      assert (b1 + b2)[1..] == b1[1..] + b2;
      LexLessConcat(a1[1..], a2, b1[1..], b2);
      if a1[0] == b1[0] && a1[1..] == b1[1..] {
        assert a1 == [a1[0]] + a1[1..] && b1 == [b1[0]] + b1[1..];
      }
    } else {
      assert a1 + a2 == a2 && b1 + b2 == b2;
    }
  }
}

=== FILE: timestamps.dfy ===
/** Modification times and their display form.

    A file's modification time is converted to UTC and shown as
    "YYYY-MM-DD HH:MM" (chrono format "%Y-%m-%d %H:%M"), or as "unknown" when the
    metadata cannot be read. Results are ranked by comparing these strings, so the
    fixed-width, zero-padded layout is what makes string order agree with time order;
    `FormatOrder` states that agreement.
 */
module Timestamps {
  import opened Common
  import opened Text

  /** A calendar date, as chrono's `NaiveDate`. */
  datatype Date = Date(year: int, month: int, day: int)

  /** Chronological order of dates: by year, then month, then day. */
  predicate DateBefore(a: Date, b: Date) {
    || a.year < b.year
    || (a.year == b.year && a.month < b.month)
    || (a.year == b.year && a.month == b.month && a.day < b.day)
  }

  /** A UTC time of day on a date, at the minute precision the display keeps. */
  datatype DateTime = DateTime(date: Date, hour: int, minute: int)

  predicate IsValidDateTime(t: DateTime) {
    && 0 <= t.date.year <= 9999
    && 1 <= t.date.month <= 12
    && 1 <= t.date.day <= 31
    && 0 <= t.hour < 24
    && 0 <= t.minute < 60
  }

  /** A file modification time (UTC) whose year has four digits. */
  type Moment = t: DateTime | IsValidDateTime(t) witness DateTime(Date(1970, 1, 1), 0, 0)

  /** Chronological order of moments. */
  predicate MomentBefore(a: Moment, b: Moment) {
    || DateBefore(a.date, b.date)
    || (a.date == b.date && a.hour < b.hour)
    || (a.date == b.date && a.hour == b.hour && a.minute < b.minute)
  }

  function Digit(n: int): byte
    requires 0 <= n < 10
  {
    '0' as int + n
  }

  /** A number below 100 as two zero-padded decimal digits. */
  function Pad2(n: int): (r: Bytes)
    requires 0 <= n < 100
    ensures |r| == 2
  {
    [Digit(n / 10), Digit(n % 10)]
  }

  /** A number below 10000 as four zero-padded decimal digits. */
  function Pad4(n: int): (r: Bytes)
    requires 0 <= n < 10000
    ensures |r| == 4
  {
    Pad2(n / 100) + Pad2(n % 100)
  }

  const Dash: byte := '-' as int
  const Blank: byte := ' ' as int

  /** The "%Y-%m-%d %H:%M" rendering of a moment. */
  function Format(t: Moment): (r: Bytes)
    ensures |r| == 16
  {
    Pad4(t.date.year) + ([Dash] + (Pad2(t.date.month) + ([Dash] + (Pad2(t.date.day)
      + ([Blank] + (Pad2(t.hour) + ([Colon] + Pad2(t.minute))))))))
  }

  /** Shown when the modification time cannot be read. */
  const Unknown: Bytes := Ascii("unknown")

  /** The `modified` column of a search result. */
  function Stamp(m: Option<Moment>): (r: Bytes)
    ensures m.None? ==> r == Unknown
    ensures m.Some? ==> |r| == 16
  {
    match m
    case Some(t) => Format(t)
    case None => Unknown
  }

  lemma LexLessSingle(x: byte, y: byte)
    ensures LexLess([x], [y]) <==> x < y
  {
    assert [x][1..] == [] && [y][1..] == [];
  }

  /** Two-digit rendering is injective and order-preserving. */
  lemma Pad2Order(a: int, b: int)
    requires 0 <= a < 100 && 0 <= b < 100
    ensures LexLess(Pad2(a), Pad2(b)) <==> a < b
    ensures Pad2(a) == Pad2(b) <==> a == b
  {
    assert Pad2(a) == [Digit(a / 10)] + [Digit(a % 10)];
    assert Pad2(b) == [Digit(b / 10)] + [Digit(b % 10)];
    LexLessConcat([Digit(a / 10)], [Digit(a % 10)], [Digit(b / 10)], [Digit(b % 10)]);
    LexLessSingle(Digit(a / 10), Digit(b / 10));
    LexLessSingle(Digit(a % 10), Digit(b % 10));
    if Pad2(a) == Pad2(b) {
      assert Pad2(a)[0] == Pad2(b)[0] && Pad2(a)[1] == Pad2(b)[1];
    }
  }

  /** Four-digit rendering is injective and order-preserving. */
  lemma Pad4Order(a: int, b: int)
    requires 0 <= a < 10000 && 0 <= b < 10000
    ensures LexLess(Pad4(a), Pad4(b)) <==> a < b
    ensures Pad4(a) == Pad4(b) <==> a == b
  {
    LexLessConcat(Pad2(a / 100), Pad2(a % 100), Pad2(b / 100), Pad2(b % 100));
    Pad2Order(a / 100, b / 100);
    Pad2Order(a % 100, b % 100);
    if Pad4(a) == Pad4(b) {
      assert Pad4(a)[..2] == Pad2(a / 100) && Pad4(b)[..2] == Pad2(b / 100);
      assert Pad4(a)[2..] == Pad2(a % 100) && Pad4(b)[2..] == Pad2(b % 100);
    }
  }

  /** A fixed-width field followed by a separator: prefixes decide, then the rest. */
  lemma FieldThenRest(fa: Bytes, ra: Bytes, fb: Bytes, rb: Bytes, sep: byte)
    requires |fa| == |fb|
    ensures LexLess(fa + ([sep] + ra), fb + ([sep] + rb))
      <==> LexLess(fa, fb) || (fa == fb && LexLess(ra, rb))
    ensures fa + ([sep] + ra) == fb + ([sep] + rb) <==> fa == fb && ra == rb
  {
    LexLessConcat(fa, [sep] + ra, fb, [sep] + rb);
    LexLessConcat([sep], ra, [sep], rb);
    LexLessIrreflexive([sep]);
    if fa + ([sep] + ra) == fb + ([sep] + rb) {
      assert (fa + ([sep] + ra))[..|fa|] == fa;
      assert (fb + ([sep] + rb))[..|fb|] == fb;
      assert (fa + ([sep] + ra))[|fa| + 1..] == ra;
      assert (fb + ([sep] + rb))[|fb| + 1..] == rb;
    }
  }

  /** The display string orders moments chronologically: for two known modification
      times, comparing their rendered strings is the same as comparing the times. */
  lemma FormatOrder(a: Moment, b: Moment)
    ensures LexLess(Format(a), Format(b)) <==> MomentBefore(a, b)
    ensures Format(a) == Format(b) <==> a == b
  {
    Pad2Order(a.hour, b.hour);
    Pad2Order(a.minute, b.minute);
    FieldThenRest(Pad2(a.hour), Pad2(a.minute), Pad2(b.hour), Pad2(b.minute), Colon);
    var ta := Pad2(a.hour) + ([Colon] + Pad2(a.minute));
    var tb := Pad2(b.hour) + ([Colon] + Pad2(b.minute));
    Pad2Order(a.date.day, b.date.day);
    FieldThenRest(Pad2(a.date.day), ta, Pad2(b.date.day), tb, Blank);
    var da := Pad2(a.date.day) + ([Blank] + ta);
    var db := Pad2(b.date.day) + ([Blank] + tb);
    Pad2Order(a.date.month, b.date.month);
    FieldThenRest(Pad2(a.date.month), da, Pad2(b.date.month), db, Dash);
    var ma := Pad2(a.date.month) + ([Dash] + da);
    var mb := Pad2(b.date.month) + ([Dash] + db);
    Pad4Order(a.date.year, b.date.year);
    FieldThenRest(Pad4(a.date.year), ma, Pad4(b.date.year), mb, Dash);
    assert Format(a) == Pad4(a.date.year) + ([Dash] + ma);
    assert Format(b) == Pad4(b.date.year) + ([Dash] + mb);
  }

  /** "unknown" compares above every rendered time, so a descending sort puts files
      with unreadable metadata first. */
  lemma UnknownAboveFormat(t: Moment)
    ensures LexLess(Format(t), Unknown)
  {
    assert Format(t)[0] == Pad4(t.date.year)[0] == Digit(t.date.year / 100 / 10);
    assert Unknown[0] == 'u' as int;
  }
}

=== FILE: title.dfy ===
/** The display-title heuristic of the session search (`extract_title_from_content`).

    It is a substring scanner, not a JSON parser: "the first quoted value after the
    first occurrence of a literal key". The user-set `"customTitle"` is tried first,
    then the first `"text"` value (the first request's message) as a fallback.
 */
module TitleScan {
  import opened Common
  import opened Text

  const CustomTitleKey: Bytes := Ascii("\"customTitle\"")
  const TextKey: Bytes := Ascii("\"text\"")
  const Null: Bytes := Ascii("null")

  /** A fallback title must be shorter than this many bytes. */
  const FallbackLimit: nat := 100

  /** The first quoted value after the first occurrence of `key`: find the key, then
      the next colon, skip whitespace, require an opening quote and take everything
      up to the next quote. Escaped quotes are not recognised. */
  function QuotedAfterKey(content: Bytes, key: Bytes): (r: Option<Bytes>)
    ensures r.Some? ==> Quote !in r.value
  {
    match Find(content, key)
    case None => None
    case Some(start) => QuotedAfterColon(content[start..])
  }

  /** The quoted value following the first colon of `tail`. */
  function QuotedAfterColon(tail: Bytes): (r: Option<Bytes>)
    ensures r.Some? ==> Quote !in r.value
  {
    match FindByte(tail, Colon)
    case None => None
    case Some(colon) => LeadingQuoted(tail[colon + 1..])
  }

  /** The quoted value at the front of `s` once leading whitespace is skipped. */
  function LeadingQuoted(s: Bytes): (r: Option<Bytes>)
    ensures r.Some? ==> Quote !in r.value
  {
    var trimmed := TrimStart(s);
    if |trimmed| > 0 && trimmed[0] == Quote then
      match FindByte(trimmed[1..], Quote)
      case None => None
      case Some(end) => Some(trimmed[1..][..end])
    else None
  }

  /** `content` is `pre key mid : ws "v" rest`, where `key` first occurs right after
      `pre`, `mid` holds no colon, `ws` is whitespace and `v` holds no quote. */
  ghost predicate KeyValueShape(content: Bytes, key: Bytes, pre: Bytes, mid: Bytes,
                                ws: Bytes, v: Bytes, rest: Bytes)
  {
    && content == pre + (key + (mid + ([Colon] + (ws + ([Quote] + (v + ([Quote] + rest)))))))
    && (forall j :: 0 <= j < |pre| ==> !OccursAt(pre + key, key, j))
    && Colon !in mid
    && AllWhitespace(ws)
    && Quote !in v
  }

  lemma SplitAt(s: Bytes, i: int)
    requires 0 <= i <= |s|
    ensures s == s[..i] + s[i..]
  {
  }

  /** The parts of a key-value shape, read back from the offsets the scanner finds. */
  lemma FirstOccurrenceAfterPre(content: Bytes, key: Bytes, pre: Bytes, rest: Bytes)
    requires content == pre + (key + rest)
    requires forall j :: 0 <= j < |pre| ==> !OccursAt(pre + key, key, j)
    ensures Find(content, key) == Some(|pre|)
  {
    var start := |pre|;
    var head := pre + key;
    assert content == head + rest;
    assert content[start..start + |key|] == key;
    forall j | 0 <= j < start
      ensures !OccursAt(content, key, j)
    {
      assert content[j..j + |key|] == head[j..j + |key|];
      assert !OccursAt(head, key, j);
    }
    FindFirstAt(content, key, start);
  }

  lemma LeadingQuotedOf(ws: Bytes, v: Bytes, rest: Bytes)
    requires AllWhitespace(ws) && Quote !in v
    ensures LeadingQuoted(ws + ([Quote] + (v + ([Quote] + rest)))) == Some(v)
  {
    var trimmed := [Quote] + (v + ([Quote] + rest));
    TrimStartPadded(ws, trimmed);
    assert trimmed[1..] == v + ([Quote] + rest);
    FindByteAt(trimmed[1..], Quote, |v|);
    assert trimmed[1..][..|v|] == v;
  }

  /** The first colon after the key is the one that ends `mid`. */
  lemma ColonAfterMid(tail: Bytes, key: Bytes, mid: Bytes, after: Bytes)
    requires Colon !in key && Colon !in mid
    requires tail == key + (mid + ([Colon] + after))
    ensures FindByte(tail, Colon) == Some(|key| + |mid|)
    ensures tail[|key| + |mid| + 1..] == after
  {
    forall j | 0 <= j < |key| + |mid|
      ensures tail[j] != Colon
    {
      if j < |key| {
        assert tail[j] == key[j];
      } else {
        assert tail[j] == mid[j - |key|];
      }
    }
    FindByteAt(tail, Colon, |key| + |mid|);
  }

  /** The scanner's result once the key and the colon have been located. */
  lemma QuotedAfterKeyAt(content: Bytes, key: Bytes, start: nat, colon: nat, after: Bytes)
    requires Find(content, key) == Some(start)
    requires FindByte(content[start..], Colon) == Some(colon)
    requires content[start..][colon + 1..] == after
    ensures QuotedAfterKey(content, key) == LeadingQuoted(after)
  {
    assert QuotedAfterKey(content, key) == QuotedAfterColon(content[start..]);
  }

  /** Locating the key and the colon in `pre key mid : after` leaves `after` to scan. */
  lemma QuotedAfterKeyOfParts(content: Bytes, key: Bytes, pre: Bytes, mid: Bytes, after: Bytes)
    requires Colon !in key && Colon !in mid
    requires content == pre + (key + (mid + ([Colon] + after)))
    requires forall j :: 0 <= j < |pre| ==> !OccursAt(pre + key, key, j)
    ensures QuotedAfterKey(content, key) == LeadingQuoted(after)
  {
    FirstOccurrenceAfterPre(content, key, pre, mid + ([Colon] + after));
    var tail := content[|pre|..];
    assert tail == key + (mid + ([Colon] + after));
    ColonAfterMid(tail, key, mid, after);
    assert tail[|key| + |mid| + 1..] == after;
    QuotedAfterKeyAt(content, key, |pre|, |key| + |mid|, after);
  }

  lemma QuotedAfterKeyOfShape(content: Bytes, key: Bytes, pre: Bytes, mid: Bytes,
                              ws: Bytes, v: Bytes, rest: Bytes)
    requires Colon !in key
    requires KeyValueShape(content, key, pre, mid, ws, v, rest)
    ensures QuotedAfterKey(content, key) == Some(v)
  {
    var after := ws + ([Quote] + (v + ([Quote] + rest)));
    QuotedAfterKeyOfParts(content, key, pre, mid, after);
    LeadingQuotedOf(ws, v, rest);
  }

  lemma Regroup(after: Bytes, ws: Bytes, trimmed: Bytes, body: Bytes, v: Bytes, rest: Bytes)
    requires after == ws + trimmed && |trimmed| > 0 && trimmed[0] == Quote && body == trimmed[1..]
    requires body == v + ([Quote] + rest)
    ensures after == ws + ([Quote] + (v + ([Quote] + rest)))
  {
    assert trimmed == [Quote] + body;
  }

  /** The offsets `LeadingQuoted` works with when it finds a value. */
  lemma LeadingQuotedFound(after: Bytes, v: Bytes) returns (trimmed: Bytes, end: nat)
    requires LeadingQuoted(after) == Some(v)
    ensures trimmed == TrimStart(after) && |trimmed| > 0 && trimmed[0] == Quote
    ensures FindByte(trimmed[1..], Quote) == Some(end)
    ensures trimmed[1..][..end] == v
  {
    trimmed := TrimStart(after);
    end := FindByte(trimmed[1..], Quote).value;
  }

  /** Leading whitespace and what is left after trimming it. */
  lemma TrimStartSplit(s: Bytes) returns (ws: Bytes)
    ensures s == ws + TrimStart(s) && AllWhitespace(ws)
  {
    ws := s[..|s| - |TrimStart(s)|];
    SplitAt(s, |ws|);
  }

  /** A quoted body: the value, the closing quote, the rest. */
  lemma BodySplit(body: Bytes, v: Bytes, end: nat) returns (rest: Bytes)
    requires FindByte(body, Quote) == Some(end) && body[..end] == v
    ensures body == v + ([Quote] + rest)
  {
    rest := body[end + 1..];
    SplitAt(body, end);
    assert body[end..] == [Quote] + rest;
  }

  /** The quoted value found in the text after the colon, with the whitespace before
      it and whatever follows its closing quote. */
  lemma ValuePart(after: Bytes, v: Bytes) returns (ws: Bytes, rest: Bytes)
    requires LeadingQuoted(after) == Some(v)
    ensures after == ws + ([Quote] + (v + ([Quote] + rest)))
    ensures AllWhitespace(ws) && Quote !in v
  {
    var trimmed, end := LeadingQuotedFound(after, v);
    ws := TrimStartSplit(after);
    rest := BodySplit(trimmed[1..], v, end);
    Regroup(after, ws, trimmed, trimmed[1..], v, rest);
  }

  /** The bytes between the key and the first colon after it. */
  lemma ColonPart(tail: Bytes, key: Bytes, colon: nat) returns (mid: Bytes)
    requires Colon !in key
    requires |key| <= |tail| && tail[..|key|] == key
    requires FindByte(tail, Colon) == Some(colon)
    ensures |key| <= colon
    ensures tail == key + (mid + ([Colon] + tail[colon + 1..]))
    ensures Colon !in mid
  {
    mid := tail[|key|..colon];
    forall i | 0 <= i < |mid|
      ensures mid[i] != Colon
    {
      assert mid[i] == tail[|key| + i];
    }
    SplitAt(tail, |key|);
    assert tail[|key|..] == mid + tail[colon..];
    assert tail[colon..] == [Colon] + tail[colon + 1..];
  }

  /** The text before the first occurrence of the key. */
  lemma KeyPart(content: Bytes, key: Bytes, start: nat) returns (pre: Bytes)
    requires Find(content, key) == Some(start)
    ensures content == pre + content[start..]
    ensures content[start..][..|key|] == key
    ensures forall j :: 0 <= j < |pre| ==> !OccursAt(pre + key, key, j)
  {
    assert OccursAt(content, key, start);
    pre := content[..start];
    SplitAt(content, start);
    var head := content[..start + |key|];
    assert head == pre + key;
    forall j | 0 <= j < start
      ensures !OccursAt(head, key, j)
    {
      assert head[j..j + |key|] == content[j..j + |key|];
      assert !OccursAt(content, key, j);
    }
  }

  lemma KeyFoundOf(content: Bytes, key: Bytes, v: Bytes) returns (start: nat)
    requires QuotedAfterKey(content, key) == Some(v)
    ensures Find(content, key) == Some(start)
    ensures QuotedAfterColon(content[start..]) == Some(v)
  {
    start := Find(content, key).value;
  }

  lemma ColonFoundOf(tail: Bytes, v: Bytes) returns (colon: nat)
    requires QuotedAfterColon(tail) == Some(v)
    ensures FindByte(tail, Colon) == Some(colon)
    ensures LeadingQuoted(tail[colon + 1..]) == Some(v)
  {
    colon := FindByte(tail, Colon).value;
  }

  /** The offsets at which the scanner found the key and the colon. */
  lemma ScannerOffsets(content: Bytes, key: Bytes, v: Bytes) returns (start: nat, colon: nat)
    requires QuotedAfterKey(content, key) == Some(v)
    ensures Find(content, key) == Some(start)
    ensures FindByte(content[start..], Colon) == Some(colon)
    ensures LeadingQuoted(content[start..][colon + 1..]) == Some(v)
  {
    start := KeyFoundOf(content, key, v);
    colon := ColonFoundOf(content[start..], v);
  }

  lemma Assemble(content: Bytes, key: Bytes, pre: Bytes, tail: Bytes, mid: Bytes, after: Bytes,
                 ws: Bytes, v: Bytes, rest: Bytes)
    requires content == pre + tail
    requires tail == key + (mid + ([Colon] + after))
    requires after == ws + ([Quote] + (v + ([Quote] + rest)))
    ensures content == pre + (key + (mid + ([Colon] + (ws + ([Quote] + (v + ([Quote] + rest)))))))
  {
  }

  lemma ShapeOfQuotedAfterKey(content: Bytes, key: Bytes, v: Bytes)
    requires Colon !in key
    requires QuotedAfterKey(content, key) == Some(v)
    ensures exists pre, mid, ws, rest :: KeyValueShape(content, key, pre, mid, ws, v, rest)
  {
    var start, colon := ScannerOffsets(content, key, v);
    var tail := content[start..];
    var after := tail[colon + 1..];
    var pre := KeyPart(content, key, start);
    var mid := ColonPart(tail, key, colon);
    var ws, rest := ValuePart(after, v);
    Assemble(content, key, pre, tail, mid, after, ws, v, rest);
    assert KeyValueShape(content, key, pre, mid, ws, v, rest);
  }

  /** The scanner contract: the value found after `key` is exactly the quoted value
      of the decomposition around the key's first occurrence. */
  lemma QuotedAfterKeySpec(content: Bytes, key: Bytes, v: Bytes)
    requires Colon !in key
    ensures QuotedAfterKey(content, key) == Some(v)
      <==> exists pre, mid, ws, rest :: KeyValueShape(content, key, pre, mid, ws, v, rest)
  {
    if QuotedAfterKey(content, key) == Some(v) {
      ShapeOfQuotedAfterKey(content, key, v);
    }
    if exists pre, mid, ws, rest :: KeyValueShape(content, key, pre, mid, ws, v, rest) {
      var pre, mid, ws, rest :| KeyValueShape(content, key, pre, mid, ws, v, rest);
      QuotedAfterKeyOfShape(content, key, pre, mid, ws, v, rest);
    }
  }

  /** Tier one: a custom title is used unless it is empty or the literal `null`. */
  predicate AcceptsCustom(v: Option<Bytes>) {
    v.Some? && v.value != [] && v.value != Null
  }

  /** Tier two: a message text is used only if it is non-empty and short. */
  predicate AcceptsFallback(v: Option<Bytes>) {
    v.Some? && v.value != [] && |v.value| < FallbackLimit
  }

  /** `extract_title_from_content`; the caller substitutes "Untitled" for `None`. */
  function ExtractTitle(content: Bytes): (r: Option<Bytes>)
    ensures r.Some? ==> r.value != [] && Quote !in r.value
    ensures r.Some? && r != QuotedAfterKey(content, CustomTitleKey) ==>
              r == QuotedAfterKey(content, TextKey) && |r.value| < FallbackLimit
  {
    var custom := QuotedAfterKey(content, CustomTitleKey);
    if AcceptsCustom(custom) then custom
    else
      var text := QuotedAfterKey(content, TextKey);
      if AcceptsFallback(text) then text else None
  }

  lemma KeysHaveNoColon()
    ensures Colon !in CustomTitleKey && Colon !in TextKey
  {
  }

  /** Tier one wins: a non-empty, non-`null` value after the first `"customTitle"`
      is the title, whatever else the document holds. */
  lemma TitleFromCustom(content: Bytes, pre: Bytes, mid: Bytes, ws: Bytes, v: Bytes, rest: Bytes)
    requires KeyValueShape(content, CustomTitleKey, pre, mid, ws, v, rest)
    requires v != [] && v != Null
    ensures ExtractTitle(content) == Some(v)
  {
    KeysHaveNoColon();
    QuotedAfterKeyOfShape(content, CustomTitleKey, pre, mid, ws, v, rest);
  }

  /** An empty or `null` custom title is rejected, so the title is the first
      `"text"` value when that is usable, and otherwise there is none. */
  lemma RejectedCustomFallsBack(content: Bytes, pre: Bytes, mid: Bytes, ws: Bytes, v: Bytes, rest: Bytes)
    requires KeyValueShape(content, CustomTitleKey, pre, mid, ws, v, rest)
    requires v == [] || v == Null
    ensures !AcceptsCustom(QuotedAfterKey(content, CustomTitleKey))
    ensures ExtractTitle(content)
         == if AcceptsFallback(QuotedAfterKey(content, TextKey)) then QuotedAfterKey(content, TextKey) else None
  {
    KeysHaveNoColon();
    QuotedAfterKeyOfShape(content, CustomTitleKey, pre, mid, ws, v, rest);
  }

  /** Tier two: when tier one yields nothing usable, only the first `"text"` value is
      examined; it becomes the title iff it is non-empty and under 100 bytes. */
  lemma TitleFromText(content: Bytes, pre: Bytes, mid: Bytes, ws: Bytes, v: Bytes, rest: Bytes)
    requires !AcceptsCustom(QuotedAfterKey(content, CustomTitleKey))
    requires KeyValueShape(content, TextKey, pre, mid, ws, v, rest)
    ensures v != [] && |v| < FallbackLimit ==> ExtractTitle(content) == Some(v)
    ensures v == [] || |v| >= FallbackLimit ==> ExtractTitle(content) == None
  {
    KeysHaveNoColon();
    QuotedAfterKeyOfShape(content, TextKey, pre, mid, ws, v, rest);
  }

  /** With neither key present there is no title. */
  lemma NoKeysNoTitle(content: Bytes)
    requires !Contains(content, CustomTitleKey) && !Contains(content, TextKey)
    ensures ExtractTitle(content) == None
  {
  }
}

=== FILE: truncate.dfy ===
/** Shortening text for the result table (`truncate_string`).

    A string longer than `max_len` bytes keeps its first `max_len - 3` bytes
    (saturating at 0) and gains "...". Rust slices `&s[..cut]` by byte offset and
    panics when `cut` falls inside a multi-byte character; `TruncateAsWritten`
    models that, and `Truncate` is the evidently intended version that backs off to
    the previous character boundary. The rest of the model uses `Truncate`.
 */
module Truncation {
  import opened Common

  const Ellipsis: Bytes := Ascii("...")

  /** Rust `usize::saturating_sub`. */
  function SaturatingSub(a: nat, b: nat): nat {
    if a >= b then a - b else 0
  }

  /** Where a truncated string is cut. */
  function Cut(maxLen: nat): nat {
    SaturatingSub(maxLen, 3)
  }

  /** A call that returns a string or panics. */
  datatype Outcome = Returned(text: Bytes) | Panicked

  /** `truncate_string` as written: the byte slice panics off a character boundary. */
  function TruncateAsWritten(s: Bytes, maxLen: nat): (r: Outcome)
    ensures r.Panicked? <==> |s| > maxLen && !IsCharBoundary(s, Cut(maxLen))
    ensures r.Returned? && |s| <= maxLen ==> r.text == s
  {
    if |s| <= maxLen then Returned(s)
    else if IsCharBoundary(s, Cut(maxLen)) then Returned(s[..Cut(maxLen)] + Ellipsis)
    else Panicked
  }

  /** The largest character boundary at or below `k` (Rust `str::floor_char_boundary`). */
  function FloorBoundary(s: Bytes, k: nat): (j: nat)
    requires k <= |s|
    ensures j <= k && IsCharBoundary(s, j)
    ensures forall i :: j < i <= k ==> !IsCharBoundary(s, i)
  {
    if IsCharBoundary(s, k) then k else FloorBoundary(s, k - 1)
  }

  /** `truncate_string` as intended: the kept prefix ends on a character boundary. */
  function Truncate(s: Bytes, maxLen: nat): (r: Bytes)
    ensures |s| <= maxLen ==> r == s
    ensures |s| > maxLen ==>
      && |r| >= 3 && r[|r| - 3..] == Ellipsis
      && |r| - 3 <= Cut(maxLen) && r[..|r| - 3] == s[..|r| - 3]
      && IsCharBoundary(s, |r| - 3)
      && (forall i :: |r| - 3 < i <= Cut(maxLen) ==> !IsCharBoundary(s, i))
    ensures maxLen >= 3 ==> |r| <= maxLen
  {
    if |s| <= maxLen then s
    else
      var keep := s[..FloorBoundary(s, Cut(maxLen))];
      assert (keep + Ellipsis)[..|keep|] == keep;
      keep + Ellipsis
  }

  /** Where the written code does not panic it returns what the corrected one does. */
  lemma AsWrittenAgrees(s: Bytes, maxLen: nat)
    ensures TruncateAsWritten(s, maxLen).Returned? ==>
      TruncateAsWritten(s, maxLen).text == Truncate(s, maxLen)
  {
  }

  /** ASCII text never makes the written code panic. */
  lemma AsciiNeverPanics(s: Bytes, maxLen: nat)
    requires IsAscii(s)
    ensures TruncateAsWritten(s, maxLen) == Returned(Truncate(s, maxLen))
  {
    if |s| > maxLen {
      var cut := Cut(maxLen);
      assert cut == 0 || s[cut] < 0x80;
    }
  }

  lemma {:induction false} AsciiIsValid(s: Bytes)
    requires IsAscii(s)
    ensures ValidUtf8(s)
    decreases |s|
  {
    if |s| > 0 {
      assert IsAscii(s[1..]) by {
        forall i | 0 <= i < |s| - 1
          ensures s[1..][i] < 0x80
        {
          assert s[1..][i] == s[i + 1];
        }
      }
      AsciiIsValid(s[1..]);
    }
  }

  /** Cutting valid text at a character boundary leaves valid text. */
  lemma {:induction false} PrefixAtBoundaryValid(s: Bytes, k: nat)
    requires ValidUtf8(s) && IsCharBoundary(s, k)
    ensures ValidUtf8(s[..k])
    decreases |s|
  {
    if 0 < k < |s| {
      var n := CharWidth(s[0]);
      assert !IsContinuation(s[k]);
      assert k >= n;
      var t := s[n..];
      assert k - n == 0 || t[k - n] == s[k];
      PrefixAtBoundaryValid(t, k - n);
      var p := s[..k];
      assert p[n..] == t[..k - n];
      assert forall i :: 1 <= i < n ==> p[i] == s[i];
    } else if k == |s| {
      assert s[..k] == s;
    }
  }

  /** Valid text followed by valid text is valid. */
  lemma {:induction false} ConcatValid(a: Bytes, b: Bytes)
    requires ValidUtf8(a) && ValidUtf8(b)
    ensures ValidUtf8(a + b)
    decreases |a|
  {
    if a == [] {
      assert a + b == b;
    } else {
      var n := CharWidth(a[0]);
      ConcatValid(a[n..], b);
      assert (a + b)[n..] == a[n..] + b;
      assert forall i :: 1 <= i < n ==> (a + b)[i] == a[i];
    }
  }

  lemma EllipsisValid()
    ensures ValidUtf8(Ellipsis)
  {
    assert IsAscii(Ellipsis);
    AsciiIsValid(Ellipsis);
  }

  /** The corrected truncation turns valid text into valid text. */
  lemma TruncateKeepsText(s: Bytes, maxLen: nat)
    requires ValidUtf8(s)
    ensures ValidUtf8(Truncate(s, maxLen))
  {
    if |s| > maxLen {
      var k := FloorBoundary(s, Cut(maxLen));
      assert Truncate(s, maxLen) == s[..k] + Ellipsis;
      PrefixAtBoundaryValid(s, k);
      EllipsisValid();
      ConcatValid(s[..k], Ellipsis);
    }
  }

  /** `n` copies of the two-byte character U+00E9 ('é'). */
  function Accented(n: nat): (s: Bytes)
    ensures |s| == 2 * n
  {
    seq(2 * n, i requires 0 <= i < 2 * n => if i % 2 == 0 then 0xC3 else 0xA9)
  }

  lemma {:induction false} AccentedIsValid(n: nat)
    ensures ValidUtf8(Accented(n))
  {
    if n > 0 {
      AccentedIsValid(n - 1);
      var s := Accented(n);
      assert s[2..] == Accented(n - 1);
      assert CharWidth(s[0]) == 2 && IsContinuation(s[1]);
    }
  }

  /** A 42-byte title of 21 accented letters, cut for a 40-byte column: the cut at
      byte 37 lands inside the nineteenth letter, so the written code panics, while
      the corrected code keeps 18 letters and adds "...". */
  lemma AccentedTitlePanics()
    ensures ValidUtf8(Accented(21))
    ensures TruncateAsWritten(Accented(21), 40) == Panicked
    ensures Truncate(Accented(21), 40) == Accented(18) + Ellipsis
  {
    AccentedIsValid(21);
    var s := Accented(21);
    assert s[37] == 0xA9 && s[36] == 0xC3;
    assert FloorBoundary(s, 37) == 36;
    assert s[..36] == Accented(18);
  }
}

=== FILE: workspace.dfy ===
/** Workspace matching and labelling shared by the workspace and session commands.

    A workspace is a per-project storage directory of the host editor, named by an
    opaque hash. Its descriptor may yield a decoded project path (decoding is done by
    `decode_workspace_folder`, which is not part of this model: the path arrives
    already decoded), and it may hold a `chatSessions` directory.
 */
module Workspaces {
  import opened Common
  import opened Text

  datatype Workspace = Workspace(hash: Bytes, projectPath: Option<Bytes>, hasChatSessions: bool)

  const Slash: byte := '/' as int
  const Dot: Bytes := Ascii(".")
  const DotDot: Bytes := Ascii("..")

  /** A path component that names an entry: not empty, not "." or "..", no separator. */
  predicate IsPlainSegment(seg: Bytes) {
    seg != [] && seg != Dot && seg != DotDot && Slash !in seg
  }

  /** The last component of a path when it is a normal one. */
  function NormalComponent(seg: Bytes): (r: Option<Bytes>)
    requires Slash !in seg
    ensures r.Some? <==> IsPlainSegment(seg)
    ensures r.Some? ==> r.value == seg
  {
    if seg == [] || seg == Dot || seg == DotDot then None else Some(seg)
  }

  /** Rust `Path::file_name` on a Unix path: the last component, where empty and "."
      components are skipped, and a final ".." or a bare root gives none. */
  function FileName(p: Bytes): (r: Option<Bytes>)
    ensures r.Some? ==> IsPlainSegment(r.value)
    decreases |p|
  {
    match RFindByte(p, Slash)
    case None => NormalComponent(p)
    case Some(i) =>
      var last := p[i + 1..];
      if last == [] || last == Dot then FileName(p[..i]) else NormalComponent(last)
  }

  /** The file name of `dir/name` is `name`, whatever the directory. */
  lemma FileNameOfJoin(dir: Bytes, name: Bytes)
    requires IsPlainSegment(name)
    ensures FileName(dir + [Slash] + name) == Some(name)
  {
    var p := dir + [Slash] + name;
    RFindByteAt(p, Slash, |dir|);
    assert p[|dir| + 1..] == name;
  }

  /** A trailing separator or a trailing "." component does not change the file name. */
  lemma FileNameIgnoresTrailing(p: Bytes)
    ensures FileName(p + [Slash]) == FileName(p)
    ensures FileName(p + [Slash] + Dot) == FileName(p)
  {
    var q := p + [Slash];
    RFindByteAt(q, Slash, |p|);
    assert q[..|p|] == p;
    var d := p + [Slash] + Dot;
    RFindByteAt(d, Slash, |p|);
    assert d[..|p|] == p && d[|p| + 1..] == Dot;
  }

  /** A path ending in ".." has no file name. */
  lemma FileNameOfParent(p: Bytes)
    ensures FileName(p + [Slash] + DotDot) == None
  {
    var d := p + [Slash] + DotDot;
    RFindByteAt(d, Slash, |p|);
    assert d[|p| + 1..] == DotDot;
  }

  /** The hash prefix used as a label ends on a character boundary. Workspace hashes
      are ASCII, so this always holds for them; slicing off a boundary would panic. */
  predicate HashCutIsClean(w: Workspace) {
    IsCharBoundary(w.hash, Min(8, |w.hash|))
  }

  /** The hash is cut only when the project path gives no file name, and then the
      cut must fall on a character boundary. */
  predicate LabelCutIsClean(w: Workspace) {
    !(w.projectPath.Some? && FileName(w.projectPath.value).Some?) ==> HashCutIsClean(w)
  }

  /** The workspace column of a search result: the last component of the project
      path, or else the first (at most) eight bytes of the hash. */
  function Label(w: Workspace): Bytes
    requires LabelCutIsClean(w)
  {
    match w.projectPath
    case Some(p) =>
      (match FileName(p)
       case Some(name) => name
       case None => w.hash[..Min(8, |w.hash|)])
    case None => w.hash[..Min(8, |w.hash|)]
  }

  /** The label is the project path's file name, a plain component, when there is
      one, and otherwise the hash's first `min(8, len)` bytes. */
  lemma LabelSpec(w: Workspace)
    requires LabelCutIsClean(w)
    ensures w.projectPath.Some? && FileName(w.projectPath.value).Some? ==>
      Label(w) == FileName(w.projectPath.value).value && IsPlainSegment(Label(w))
    ensures !(w.projectPath.Some? && FileName(w.projectPath.value).Some?) ==>
      |Label(w)| == Min(8, |w.hash|) && Label(w) == w.hash[..|Label(w)|]
  {
  }

  /** The hash or the decoded project path contains `needle` once lower-cased. */
  predicate Mentions(w: Workspace, needle: Bytes) {
    || Contains(Lower(w.hash), needle)
    || (w.projectPath.Some? && Contains(Lower(w.projectPath.value), needle))
  }

  /** The workspaces that mention `needle`, in their original order. */
  function Select(all: seq<Workspace>, needle: Bytes): (r: seq<Workspace>)
    ensures |r| <= |all|
    ensures forall w :: w in r <==> w in all && Mentions(w, needle)
  {
    if all == [] then []
    else (if Mentions(all[0], needle) then [all[0]] else []) + Select(all[1..], needle)
  }

  /** The pattern "." stands for the name of the current directory, when it has one. */
  function ResolvePattern(pattern: Bytes, cwdName: Option<Bytes>): (r: Bytes)
    ensures pattern != Dot ==> r == pattern
  {
    if pattern == Dot then cwdName.GetOr(pattern) else pattern
  }

  /** `find_workspaces`: the workspaces whose hash or project path contains the
      pattern, ignoring case; `cwdName` is the file name of the current directory. */
  function FindWorkspaces(all: seq<Workspace>, pattern: Bytes, cwdName: Option<Bytes>)
    : (r: seq<Workspace>)
    ensures forall w :: w in r <==>
      w in all && Mentions(w, Lower(ResolvePattern(pattern, cwdName)))
    ensures pattern == Dot && cwdName.Some? ==>
      forall w :: w in r <==> w in all && Mentions(w, Lower(cwdName.value))
  {
    Select(all, Lower(ResolvePattern(pattern, cwdName)))
  }

  /** `show_workspace`: the workspaces whose hash or project path contains the query,
      ignoring case. */
  function ShowWorkspace(all: seq<Workspace>, query: Bytes): (r: seq<Workspace>)
    ensures forall w :: w in r <==> w in all && Mentions(w, Lower(query))
  {
    Select(all, Lower(query))
  }

  /** Apart from the "." shorthand, `show_workspace` selects what `find_workspaces`
      selects. */
  lemma ShowMatchesFind(all: seq<Workspace>, query: Bytes, cwdName: Option<Bytes>)
    requires query != Dot
    ensures ShowWorkspace(all, query) == FindWorkspaces(all, query, cwdName)
  {
  }

  /** An empty pattern is contained in everything, so it selects every workspace. */
  lemma EmptyPatternSelectsAll(all: seq<Workspace>)
    ensures Select(all, []) == all
  {
    if all != [] {
      ContainsEmpty(Lower(all[0].hash));
      EmptyPatternSelectsAll(all[1..]);
    }
  }

  /** The session search's early workspace filter: only workspaces with a
      `chatSessions` directory, and with a filter only those that mention it. */
  predicate KeepForSearch(w: Workspace, filter: Option<Bytes>) {
    w.hasChatSessions && (filter.None? || Mentions(w, Lower(filter.value)))
  }

  datatype Message = Message(text: Option<Bytes>)
  datatype Request = Request(message: Option<Message>)

  /** A parsed chat session; `title` is what the session model derives as its title
      (that derivation is not part of this model). */
  datatype ChatSession = ChatSession(sessionId: Option<Bytes>, title: Bytes, requests: seq<Request>)

  /** The sessions stored in one workspace; `None` when listing them fails. */
  datatype WorkspaceSessions = WorkspaceSessions(workspace: Workspace, sessions: Option<seq<ChatSession>>)

  predicate RequestMentions(q: Request, needle: Bytes) {
    q.message.Some? && q.message.value.text.Some? && Contains(Lower(q.message.value.text.value), needle)
  }

  /** Some request's message text contains `needle` once lower-cased. */
  function AnyRequestMentions(qs: seq<Request>, needle: Bytes): (b: bool)
    ensures b <==> exists i :: 0 <= i < |qs| && RequestMentions(qs[i], needle)
  {
    if qs == [] then false
    else RequestMentions(qs[0], needle) || AnyRequestMentions(qs[1..], needle)
  }

  /** The match test of `find_sessions`: session id, title or some message text. */
  predicate SessionMatches(s: ChatSession, needle: Bytes) {
    || (s.sessionId.Some? && Contains(Lower(s.sessionId.value), needle))
    || Contains(Lower(s.title), needle)
    || AnyRequestMentions(s.requests, needle)
  }

  /** With `--project`, only workspaces whose normalised path equals the normalised
      argument take part; `normalize` stands for `normalize_path`. */
  predicate InProject(w: Workspace, project: Option<Bytes>, normalize: Bytes -> Bytes) {
    project.None? ||
    (w.projectPath.Some? && normalize(w.projectPath.value) == normalize(project.value))
  }

  /** A session found by `find_sessions`, with the workspace it came from. */
  datatype Found = Found(workspace: Workspace, session: ChatSession)

  /** A workspace whose sessions `find_sessions` lists. */
  predicate Searched(w: Workspace, project: Option<Bytes>, normalize: Bytes -> Bytes) {
    w.hasChatSessions && InProject(w, project, normalize)
  }

  /** A searched workspace whose session listing fails; this ends the command. */
  predicate ListingFails(ws: WorkspaceSessions, project: Option<Bytes>, normalize: Bytes -> Bytes) {
    Searched(ws.workspace, project, normalize) && ws.sessions.None?
  }

  /** `find_sessions`: every matching session of every workspace with chat sessions
      in the selected project, in storage order. `discovered` is `None` when the
      workspace discovery fails; the result is `None` when the command returns an
      error, which it does on that failure and on the first searched workspace
      whose sessions cannot be listed. */
  function FindSessions(discovered: Option<seq<WorkspaceSessions>>, pattern: Bytes, project: Option<Bytes>,
                        normalize: Bytes -> Bytes): (r: Option<seq<Found>>)
    ensures r.None? <==>
      || discovered.None?
      || exists i :: 0 <= i < |discovered.value| && ListingFails(discovered.value[i], project, normalize)
    ensures r.Some? ==> forall f :: f in r.value <==> exists i ::
      && 0 <= i < |discovered.value|
      && discovered.value[i].workspace == f.workspace
      && Searched(f.workspace, project, normalize)
      && discovered.value[i].sessions.Some?
      && f.session in discovered.value[i].sessions.value && SessionMatches(f.session, Lower(pattern))
  {
    match discovered
    case None => None
    case Some(stores) => FoundInAll(stores, Lower(pattern), project, normalize)
  }

  /** The matching sessions of a sequence of workspaces, or `None` at the first
      failing listing. */
  function FoundInAll(stores: seq<WorkspaceSessions>, needle: Bytes, project: Option<Bytes>,
                      normalize: Bytes -> Bytes): (r: Option<seq<Found>>)
    ensures r.None? <==> exists i :: 0 <= i < |stores| && ListingFails(stores[i], project, normalize)
    ensures r.Some? ==> forall f :: f in r.value <==> exists i ::
      && 0 <= i < |stores|
      && stores[i].workspace == f.workspace
      && Searched(f.workspace, project, normalize)
      && stores[i].sessions.Some?
      && f.session in stores[i].sessions.value && SessionMatches(f.session, needle)
  {
    if stores == [] then Some([])
    else
      assert forall i :: 0 < i < |stores| ==> stores[i] == stores[1..][i - 1];
      match FoundIn(stores[0], needle, project, normalize)
      case None => None
      case Some(here) =>
        match FoundInAll(stores[1..], needle, project, normalize)
        case None => None
        case Some(rest) => Some(here + rest)
  }

  /** The matching sessions of one workspace, or `None` when it is searched and its
      listing fails. */
  function FoundIn(ws: WorkspaceSessions, needle: Bytes, project: Option<Bytes>,
                   normalize: Bytes -> Bytes): (r: Option<seq<Found>>)
    ensures r.None? <==> ListingFails(ws, project, normalize)
    ensures r.Some? ==> forall f :: f in r.value <==>
      && f.workspace == ws.workspace
      && Searched(ws.workspace, project, normalize)
      && ws.sessions.Some?
      && f.session in ws.sessions.value && SessionMatches(f.session, needle)
  {
    if !Searched(ws.workspace, project, normalize) then Some([])
    else
      match ws.sessions
      case None => None
      case Some(ss) => Some(MatchingSessions(ws.workspace, ss, needle))
  }

  function MatchingSessions(w: Workspace, ss: seq<ChatSession>, needle: Bytes): (r: seq<Found>)
    ensures forall f :: f in r <==> f.workspace == w && f.session in ss && SessionMatches(f.session, needle)
  {
    if ss == [] then []
    else
      (if SessionMatches(ss[0], needle) then [Found(w, ss[0])] else [])
        + MatchingSessions(w, ss[1..], needle)
  }

  /** An empty pattern matches every session: its title always contains it. */
  lemma EmptyPatternMatchesSession(s: ChatSession)
    ensures SessionMatches(s, Lower([]))
  {
    ContainsEmpty(Lower(s.title));
  }
}
